=== FILE: README.md ===
# Buyer leads: a Dafny model

This project models the client-side logic of the buyer-leads application. It is a
Next.js front end that stores real-estate buyer leads in a hosted Postgres store.
The parts modelled are:

- **Lead schema** (`BuyerSchema`). The `createBuyer` validator has 14 fields:
  - closed enumerations for city, property type, BHK, purpose, timeline, source and status;
  - length bounds on name, phone and notes;
  - optional email, budgets and tags;
  - a `"New"` default for status.
  A submitted form is a JSON-like object (`Rows.Row`, a map from key to `Value`).
  `Validate` either produces the typed `BuyerInput` record or lists every failing field.
- **Session cookie** (`SessionToken`). The `user` cookie holds `"<name> <ownerId>"`. Two readers exist:
  - the lead pages take the second space-separated piece;
  - the navbar destructures the first two pieces and needs both non-empty.
- **"My leads" list** (`LeadList`). This is the owner-scoped fetch, plus edit, cancel,
  field change, save (a merge of the draft into the matching row) and confirmed
  delete, each with its success or error popup.
- **All-leads page** (`LeadSearch`). It has a presence-only cookie gate and the
  case-insensitive substring search over `full_name city property_type purpose`.
- **New-lead submission** (`NewLead`). This covers:
  - the comma-separated tags parser;
  - the mapping from camelCase form fields to snake_case lead columns;
  - the owner look-up-or-create step and its error branches;
  - the final insert.
- **Register and login** (`FormFields`, `RegisterForm`, `LoginForm`). These cover
  the required-field and password-match checks, the insert or look-up, and the
  cookie written on success.
- **Navbar** (`Navbar`). This covers the session check against the store, logout,
  navigation clicks and active-link highlighting.

Every store call, the confirm dialog, `crypto.randomUUID` and `new Date()` are
parameters: store results are inputs, and each handler returns the requests it issues. `Text`
holds the string primitives the source relies on: `split`, `join`, `trim`,
`includes` and `toLowerCase`. `Wrappers` holds `Option` and `Result`.

Some behaviours are easy to assume but are not what the code does; the model follows the code:

- The schema checks `bhk` against its enumeration whatever the property type. It
  is not restricted to apartments and villas (`BuyerSchema.BhkIgnoresPropertyType`).
  It does not require `budgetMax >= budgetMin` (`BuyerSchema.BudgetsUnrelated`).
- The new-lead form is built without a schema resolver, so `createBuyer` is never
  applied on submission (`NewLead.SchemaNotEnforced`).
- The lead pages accept any cookie with a non-empty second piece. A name
  containing a space therefore yields a piece of the name, not the owner id
  (`SessionToken.TwoWordNameExample`).
- A delete whose store call succeeds removes the matching rows locally. Removing
  again is a no-op (`LeadList.RemoveIdempotent`). Whether the store reports an
  error for an already-deleted id is a store outcome, and here it is a parameter.

## Model

| member | source | states |
|---|---|---|
| BuyerSchema.ParseCity | src/lib/validators/buyer.ts:7 | a string is accepted exactly when it is one of the five city literals, and the accepted value prints back as that literal |
| BuyerSchema.ParsePropertyType | src/lib/validators/buyer.ts:8 | accepted exactly for the five property-type literals; the value prints back as the input |
| BuyerSchema.ParseBhk | src/lib/validators/buyer.ts:9 | accepted exactly for "1", "2", "3", "4" and "Studio"; the value prints back as the input |
| BuyerSchema.ParsePurpose | src/lib/validators/buyer.ts:10 | accepted exactly for "Buy" and "Rent"; the value prints back as the input |
| BuyerSchema.ParseTimeline | src/lib/validators/buyer.ts:13 | accepted exactly for "0-3m", "3-6m", ">6m" and "Exploring"; the value prints back as the input |
| BuyerSchema.ParseSource | src/lib/validators/buyer.ts:14 | accepted exactly for the five source literals; the value prints back as the input |
| BuyerSchema.ParseStatus | src/lib/validators/buyer.ts:18 | accepted exactly for the seven status literals; the value prints back as the input |
| BuyerSchema.ParseFullName | src/lib/validators/buyer.ts:4 | fullName passes exactly when it is a string of at least 2 characters, and the parsed value is that string |
| BuyerSchema.ParseEmail | src/lib/validators/buyer.ts:5 | email passes when absent, or when it is a string the email check accepts; the parsed value is absent or that string |
| BuyerSchema.ParsePhone | src/lib/validators/buyer.ts:6 | phone passes exactly when it is a string of 10 to 15 characters |
| BuyerSchema.ParseOptionalNumber | src/lib/validators/buyer.ts:11-12 | a budget passes when absent or a number, and is carried through unchanged |
| BuyerSchema.ParseNotes | src/lib/validators/buyer.ts:15 | notes pass when absent or a string of at most 1000 characters |
| BuyerSchema.ParseTags | src/lib/validators/buyer.ts:16 | tags pass when absent or an array of strings |
| BuyerSchema.ParseCityField | src/lib/validators/buyer.ts:7 | city must be present and one of the city literals; the value names the input string |
| BuyerSchema.ParsePropertyTypeField | src/lib/validators/buyer.ts:8 | propertyType must be present and one of its literals; the value names the input string |
| BuyerSchema.ParseBhkField | src/lib/validators/buyer.ts:9 | bhk passes when absent (giving no value) or one of its literals (giving that value) |
| BuyerSchema.ParsePurposeField | src/lib/validators/buyer.ts:10 | purpose must be present and one of its literals |
| BuyerSchema.ParseTimelineField | src/lib/validators/buyer.ts:13 | timeline must be present and one of its literals |
| BuyerSchema.ParseSourceField | src/lib/validators/buyer.ts:14 | source must be present and one of its literals |
| BuyerSchema.ParseStatusField | src/lib/validators/buyer.ts:18 | status passes when absent (defaulting to New) or one of the seven literals |
| BuyerSchema.AllFieldsOkMeansEveryField | src/lib/validators/buyer.ts:3-19 | the object schema passes exactly when each of its 14 field rules passes |
| BuyerSchema.Validate | src/lib/validators/buyer.ts:3-19 | success exactly when every field rule holds; on failure the error list is non-empty and names exactly the failing fields; on success the record agrees with the input on every field, with status New when absent |
| BuyerSchema.EnumRoundTrips | src/lib/validators/buyer.ts:7-18 | every enumeration value's literal parses back to that value |
| BuyerSchema.ValidateToRaw | src/lib/validators/buyer.ts:3-19 | any well-formed lead, written back out as a form object, validates to exactly itself |
| BuyerSchema.ValidatedIsWellFormed | src/lib/validators/buyer.ts:4-16 | every accepted lead satisfies the length and email constraints |
| BuyerSchema.NormaliseIdempotent | src/lib/validators/buyer.ts:3-19 | validating the normalised form of an accepted input gives the same result again |
| BuyerSchema.BhkIgnoresPropertyType | src/lib/validators/buyer.ts:8-9 | replacing the property type of an accepted lead with any valid one keeps it accepted; bhk is not tied to the property type |
| BuyerSchema.BudgetsUnrelated | src/lib/validators/buyer.ts:11-12 | any pair of numeric budgets is accepted, including a minimum above the maximum |
| BuyerSchema.PlotLeadAccepted | src/lib/validators/buyer.ts:3-19 | a Plot lead with a bhk and an inverted budget range is accepted, and status defaults to New |
| SessionToken.OwnerId | app/buyers/UserData.tsx:45-60 | "User not logged in." exactly when the cookie is absent or empty; otherwise the owner id is the non-empty, space-free second piece of the cookie split on spaces, else "Invalid cookie format."; conversely, any cookie that is a space-free word, a space and a non-empty space-free id (then nothing or a space and anything) yields that id |
| SessionToken.NavbarCredentials | app/navbar.tsx:23-35 | no user for an absent cookie; a user is the non-empty first and second space-separated pieces of the cookie, and every cookie whose first two pieces are non-empty yields exactly those pieces, whatever follows |
| SessionToken.Format | app/buyers/new/register/page.tsx:96 | the written cookie splits on spaces into the name's pieces followed by the owner id's pieces, and joining those pieces gives the cookie back |
| SessionToken.FormatRoundTrip | app/buyers/new/register/page.tsx:96 | a cookie written as "name id" (space-free parts) gives back the id to the lead pages, and (name, id) to the navbar when the name is non-empty |
| SessionToken.ReadersAgree | app/navbar.tsx:30-35 | whenever the navbar accepts a cookie, the lead pages read the same owner id from it |
| SessionToken.ReadersDisagreeOnEmptyName | app/buyers/UserData.tsx:52-60 | the cookie " u1" is accepted by the lead pages (owner u1) but rejected by the navbar |
| SessionToken.SpacedNameHidesOwnerId | app/buyers/UserData.tsx:52-54 | when the name contains a space, the lead pages' owner id does not depend on the real id at all |
| SessionToken.TwoWordNameExample | app/buyers/new/page.tsx:51-53 | for the name "first last", the second piece read as the owner id is "last" |
| SessionToken.NavbarReadsSpacedName | app/navbar.tsx:30-35 | for the name "first last", the navbar looks up the user (first, last), not the owner id |
| LeadList.LoadMine | app/buyers/UserData.tsx:43-78 | no query and "User not logged in." without a cookie; a malformed cookie gives "Invalid cookie format."; otherwise the store is queried by the cookie's owner id, and its rows or its error message are kept; a "no data" answer gives no rows and no error |
| LeadList.Edit | app/buyers/UserData.tsx:83-86 | editing a lead sets the editing id to its id and the draft to a copy of the row, leaving the list untouched |
| LeadList.EditSelectsOne | app/buyers/UserData.tsx:83-86 | with unique ids, after editing a listed lead exactly that row is in edit mode |
| LeadList.Cancel | app/buyers/UserData.tsx:88-91 | cancel clears the editing id and the draft, so no row is in edit mode |
| LeadList.Change | app/buyers/UserData.tsx:93-95 | a field change sets that key of the draft to the typed string and leaves every other key as it was |
| LeadList.Patch | app/buyers/UserData.tsx:104-106 | rows with the saved id become row merged with draft (draft wins); all other rows are unchanged, same length |
| LeadList.Save | app/buyers/UserData.tsx:97-113 | the draft is sent as the update of that id; on success the list is patched, edit mode ends and the updated popup shows; on error the list and draft are kept and the error popup carries the store message |
| LeadList.SaveReflectsDraft | app/buyers/UserData.tsx:103-109 | after a successful save, every draft field holds in the saved row, and other fields of that row are kept |
| LeadList.EditStatusThenSave | app/buyers/UserData.tsx:83-109 | edit, change status, save: the lead's row now has the new status and otherwise equals the original |
| LeadList.Remove | app/buyers/UserData.tsx:125 | the result is the subsequence of rows without the id: no row with the id remains, every other row keeps its multiplicity and order |
| LeadList.Delete | app/buyers/UserData.tsx:116-130 | a delete request for the id is sent exactly when the user confirmed; an unconfirmed delete changes nothing; a confirmed success removes the id with the deleted popup; a confirmed failure keeps the list and shows the error popup |
| LeadList.AbsentIdUnchanged | app/buyers/UserData.tsx:104-125 | save and delete of an id no row carries leave the list unchanged |
| LeadList.RemoveIdempotent | app/buyers/UserData.tsx:125 | removing the same id twice equals removing it once |
| LeadList.RemoveKeepsUniqueIds | app/buyers/UserData.tsx:125 | deleting keeps lead ids unique |
| LeadSearch.LoadAll | app/buyers/page.tsx:40-64 | the store is queried (unscoped) exactly when a cookie is present; otherwise "User not logged in."; rows or the store's error message are kept; a "no data" answer gives no rows and no error |
| LeadSearch.Filter | app/buyers/page.tsx:69-73 | the result is the order-preserving subsequence of exactly the rows whose lower-cased "full_name city property_type purpose" contains the lower-cased term |
| LeadSearch.EmptyTermKeepsAll | app/buyers/page.tsx:69-73 | an empty search term shows every lead |
| LeadSearch.FilterIdempotent | app/buyers/page.tsx:69-73 | filtering the filtered list again by the same term changes nothing |
| LeadSearch.CaseInsensitive | app/buyers/page.tsx:71-72 | searching with the lower-cased term gives the same list as the term itself |
| LeadSearch.FilterSameMatches | app/buyers/page.tsx:69-73 | terms that match the same rows give the same filtered list |
| LeadSearch.OwnListImpliesAllLeads | app/buyers/page.tsx:40-64 | whenever the "my leads" list queries the store, the all-leads page queries it too and shows the same rows and error for the same answer |
| LeadSearch.MalformedCookieSeesAllLeads | app/buyers/page.tsx:42-47 | a non-empty cookie without a space is refused by the "my leads" list with "Invalid cookie format." but still opens the all-leads page |
| Text.Split | app/buyers/UserData.tsx:53 | splitting yields one piece more than the separator count, and no piece contains the separator |
| Text.JoinSplit | app/buyers/UserData.tsx:53 | joining the pieces of a split with the separator gives back the string |
| Text.SplitJoin | app/buyers/new/register/page.tsx:96 | splitting a join of separator-free pieces gives back the pieces |
| Text.SplitConcat | app/buyers/new/register/page.tsx:96 | splitting "a d b" on d gives the pieces of a followed by the pieces of b |
| Text.Trim | app/buyers/new/page.tsx:268 | the result is the input with leading and trailing whitespace removed, and has none at either end |
| Text.TrimTrimmed | app/buyers/new/page.tsx:268 | trimming a string with no outer whitespace returns it unchanged |
| Text.Contains | app/buyers/page.tsx:72 | true exactly when the needle occurs at some position of the haystack |
| Text.ToLower | app/buyers/page.tsx:71-72 | the result has the input's length with every character lower-cased |
| Text.ToLowerIdempotent | app/buyers/page.tsx:71-72 | lower-casing twice equals lower-casing once |
| Text.IntToString | app/buyers/page.tsx:70 | a number prints as a minus sign exactly when negative, followed by decimal digits that denote its magnitude |
| Text.NatToString | app/buyers/page.tsx:70 | the printed digits denote the number, and only zero starts with the digit 0 |
| NewLead.ParseTagsInput | app/buyers/new/page.tsx:267-269 | an empty input gives no tags; otherwise one tag per comma-separated piece, tag i being the i-th piece trimmed, so no tag contains a comma |
| NewLead.TagsRoundTrip | app/buyers/new/page.tsx:268 | tags that are already trimmed and comma-free, joined by commas, parse back to the same list |
| NewLead.LeadRow | app/buyers/new/page.tsx:93-112 | the inserted row carries the owner's id, external id and timestamp, and each lead column exactly when its camelCase form field is present, with that field's value |
| NewLead.Submit | app/buyers/new/page.tsx:37-60 | a missing or malformed cookie stops before any store call with the matching message; otherwise the submission proceeds with the cookie's owner id |
| NewLead.SubmitFor | app/buyers/new/page.tsx:62-126 | the first request looks up the owner; a failed look-up stops with "Error checking buyer.", a failed owner insert with "Could not create buyer.", a missing created row with "Something went wrong."; an insert is only issued with a resolved owner and carries the mapped row, after exactly the look-up (owner found) or the look-up and one owner creation (owner created); its error is shown as is, and success (with the created popup) exactly when the insert is issued and does not fail |
| NewLead.SubmitRequests | app/buyers/new/page.tsx:62-113 | an owner row is created exactly when the look-up neither failed (an error other than "no rows") nor found a row; the lead is inserted exactly when the look-up did not fail and an owner row is then at hand, and the insert is always the last request; the owner is looked up once, as the first request, created at most once, as the second, and at most three requests are made |
| NewLead.DefaultFormRejected | app/buyers/new/page.tsx:31-33 | the form's default values (only status New) would not pass the lead schema |
| NewLead.SchemaNotEnforced | app/buyers/new/page.tsx:25-33 | with a valid cookie and an existing owner, any form contents whatever are inserted successfully |
| FormFields.HandleChange | app/buyers/new/register/page.tsx:39-42 | typing into a field sets its value and clears its error, leaving every other value and error unchanged |
| RegisterForm.Check | app/buyers/new/register/page.tsx:47-71 | each field's error is "… is required" exactly when it is empty; a confirmation differing from a non-empty password gives "Passwords do not match"; the error flag is set exactly when some message is non-empty; the confirmation's slot is empty exactly when it is filled and either matches the password or the password is empty |
| RegisterForm.Submit | app/buyers/new/register/page.tsx:73-101 | an account is inserted exactly when there is no error, with a fresh owner id and timeline Exploring; the cookie "name ownerId" is written exactly when that insert succeeds, and an alert otherwise |
| RegisterForm.AllErrorsReported | app/buyers/new/register/page.tsx:47-73 | an all-empty form reports all three required messages at once and issues no insert |
| RegisterForm.FilledFormRegisters | app/buyers/new/register/page.tsx:47-101 | a form with name and password filled and a matching confirmation has no errors, inserts the account with a fresh id and timeline Exploring, and writes the cookie exactly when the insert succeeds |
| RegisterForm.RegisteredCookieIdentifies | app/buyers/new/register/page.tsx:74-96 | for a space-free name, the cookie written at registration gives the lead pages the new owner id and the navbar (name, new id) |
| LoginForm.Check | app/buyers/new/login/page.tsx:27-39 | each of name and password is reported as required exactly when empty |
| LoginForm.Submit | app/buyers/new/login/page.tsx:39-55 | the store is queried by name and password exactly when both are filled; a found account writes the cookie "name ownerid", no account alerts "Invalid name or password" |
| LoginForm.RegisterThenLogin | app/buyers/new/login/page.tsx:43-53 | logging in with the registered name and password, against the registered account, writes the same cookie registration wrote |
| Navbar.CheckSession | app/navbar.tsx:22-55 | without a cookie there is no query and no user; the store is asked only when both cookie pieces are present; the user is set exactly when the store confirms, and otherwise the cookie is removed |
| Navbar.Logout | app/navbar.tsx:62-66 | logout removes the cookie, clears the user and routes to the login page |
| Navbar.NavClick | app/navbar.tsx:57-60 | a navigation click routes to the URL and closes the menu, leaving the session untouched |
| Navbar.PathChanged | app/navbar.tsx:18-20 | after a path change exactly the new path's link is active; menu, session and route are unchanged |
| Navbar.OneActiveLink | app/navbar.tsx:68 | in every state the link of the active URL is highlighted and no other link is |
| Navbar.NavigationHighlightsTarget | app/navbar.tsx:18-68 | after clicking a link and the path changing to it, exactly that link is active |
| Navbar.LogoutEndsSession | app/navbar.tsx:22-66 | after logout the next session check issues no query and yields no user |
| Navbar.WrittenCookieSignsIn | app/navbar.tsx:30-50 | a cookie written as "name id" makes the navbar query exactly (name, id), and the user is set exactly when the store confirms it |
| Navbar.SpacedNameSignsOut | app/navbar.tsx:30-49 | a cookie written for a two-word name is looked up as the two words of the name, and when that account does not exist the cookie is removed and no user is set |

## Left out

- Rendering, React state plumbing, loading flags, `window.scrollTo`, `router.push` beyond the recorded route, `reset()`, and console logging are not modelled.
- The hosted store is not modelled. Each call's outcome is an input, and the requests are outputs. Server-side ordering by `created_at` is taken as given in the returned rows.
- The popup component, the home page, the API route, the layout and the build configuration are not part of this model.
- Email syntax is the parameter `isEmail`, because zod's email pattern is a library regular expression.
- zod's error messages, default and custom (such as "Name must be at least 2 characters" and "Invalid email"), are not modelled. Failures are reported as the list of failing fields.
- Budgets are integers. JavaScript numbers are floats, and NaN or fractional budgets are not modelled.
- Text.ToLower: lower-cases ASCII letters only. JavaScript's `toLowerCase` also maps non-ASCII letters. The searches in `LeadSearch.Filter` inherit this.
- BuyerSchema.ParseFullName: string lengths count Dafny characters. JavaScript counts UTF-16 code units, so characters outside the basic plane count once here and twice in the source.
- BuyerSchema.ParsePhone: the 10 to 15 character bounds count Dafny characters, not UTF-16 code units, for the same reason.
- BuyerSchema.ParseNotes: the 1000 character bound counts Dafny characters, not UTF-16 code units, for the same reason.
- SessionToken.OwnerId: the cookie library already decodes the value it reads, and the lead pages apply `decodeURIComponent` a second time; the navbar does not. The model reads the cookie once decoded, so the second decode, and its malformed-escape exception, are not modelled.
- SessionToken.FormatRoundTrip: holds only for names and ids without a `%` escape, because of the lead pages' second decode. A name such as "A%20B" reaches the navbar unchanged but the lead pages as "A B".
- SessionToken.ReadersAgree: holds only for cookies without a `%` escape, for the same reason.
- RegisterForm.RegisteredCookieIdentifies: holds only for names without a `%` escape, for the same reason.
- NewLead.SubmitFor: the catch-all "Something went wrong." is modelled only for the case the source can reach without a store fault, namely a created owner row that comes back null. Other thrown exceptions are not modelled.
- LeadList.LoadMine: the catch-all that sets "Something went wrong." when the fetch throws (app/buyers/UserData.tsx:73-74) is not modelled. A store fault arrives as an error message instead.
- LeadSearch.LoadAll: the same catch-all "Something went wrong." (app/buyers/page.tsx:59-60) is not modelled, for the same reason.
- LoginForm.Submit: a look-up that throws is folded into "no account found", so the model alerts "Invalid name or password" where the source alerts "Something went wrong!" (app/buyers/new/login/page.tsx:56-58).
- Cookie expiry (7 days) and `crypto.randomUUID` / `new Date()` are not modelled. The id and timestamp are parameters.
- Form values in the list editor are strings, as delivered by inputs and selects. Their conversion back to typed columns is left to the store.

=== FILE: buyer_schema.dfy ===
/**
 * The `createBuyer` schema of src/lib/validators/buyer.ts: per-field rules
 * for a buyer lead as submitted from a form, and the normalised record a
 * successful parse produces. Every failing field is reported, not only the
 * first one. The email syntax check is the parameter `isEmail`.
 */
module BuyerSchema {
  import opened Wrappers
  import opened Rows

  // ---- closed enumerations ------------------------------------------------

  datatype City = Chandigarh | Mohali | Zirakpur | Panchkula | CityOther

  const CityNames: seq<string> := ["Chandigarh", "Mohali", "Zirakpur", "Panchkula", "Other"]

  function CityName(c: City): (s: string)
    ensures s in CityNames
  {
    match c
    case Chandigarh => "Chandigarh"
    case Mohali => "Mohali"
    case Zirakpur => "Zirakpur"
    case Panchkula => "Panchkula"
    case CityOther => "Other"
  }

  function ParseCity(s: string): (r: Option<City>)
    ensures r.Some? <==> s in CityNames
    ensures r.Some? ==> CityName(r.value) == s
  {
    if s == "Chandigarh" then Some(Chandigarh)
    else if s == "Mohali" then Some(Mohali)
    else if s == "Zirakpur" then Some(Zirakpur)
    else if s == "Panchkula" then Some(Panchkula)
    else if s == "Other" then Some(CityOther)
    else None
  }

  datatype PropertyType = Apartment | Villa | Plot | Office | Retail

  const PropertyTypeNames: seq<string> := ["Apartment", "Villa", "Plot", "Office", "Retail"]

  function PropertyTypeName(p: PropertyType): (s: string)
    ensures s in PropertyTypeNames
  {
    match p
    case Apartment => "Apartment"
    case Villa => "Villa"
    case Plot => "Plot"
    case Office => "Office"
    case Retail => "Retail"
  }

  function ParsePropertyType(s: string): (r: Option<PropertyType>)
    ensures r.Some? <==> s in PropertyTypeNames
    ensures r.Some? ==> PropertyTypeName(r.value) == s
  {
    if s == "Apartment" then Some(Apartment)
    else if s == "Villa" then Some(Villa)
    else if s == "Plot" then Some(Plot)
    else if s == "Office" then Some(Office)
    else if s == "Retail" then Some(Retail)
    else None
  }

  datatype Bhk = One | Two | Three | Four | Studio

  const BhkNames: seq<string> := ["1", "2", "3", "4", "Studio"]

  function BhkName(b: Bhk): (s: string)
    ensures s in BhkNames
  {
    match b
    case One => "1"
    case Two => "2"
    case Three => "3"
    case Four => "4"
    case Studio => "Studio"
  }

  function ParseBhk(s: string): (r: Option<Bhk>)
    ensures r.Some? <==> s in BhkNames
    ensures r.Some? ==> BhkName(r.value) == s
  {
    if s == "1" then Some(One)
    else if s == "2" then Some(Two)
    else if s == "3" then Some(Three)
    else if s == "4" then Some(Four)
    else if s == "Studio" then Some(Studio)
    else None
  }

  datatype Purpose = Buy | Rent

  const PurposeNames: seq<string> := ["Buy", "Rent"]

  function PurposeName(p: Purpose): (s: string)
    ensures s in PurposeNames
  {
    match p
    case Buy => "Buy"
    case Rent => "Rent"
  }

  function ParsePurpose(s: string): (r: Option<Purpose>)
    ensures r.Some? <==> s in PurposeNames
    ensures r.Some? ==> PurposeName(r.value) == s
  {
    if s == "Buy" then Some(Buy)
    else if s == "Rent" then Some(Rent)
    else None
  }

  datatype Timeline = ZeroToThree | ThreeToSix | OverSix | Exploring

  const TimelineNames: seq<string> := ["0-3m", "3-6m", ">6m", "Exploring"]

  function TimelineName(t: Timeline): (s: string)
    ensures s in TimelineNames
  {
    match t
    case ZeroToThree => "0-3m"
    case ThreeToSix => "3-6m"
    case OverSix => ">6m"
    case Exploring => "Exploring"
  }

  function ParseTimeline(s: string): (r: Option<Timeline>)
    ensures r.Some? <==> s in TimelineNames
    ensures r.Some? ==> TimelineName(r.value) == s
  {
    if s == "0-3m" then Some(ZeroToThree)
    else if s == "3-6m" then Some(ThreeToSix)
    else if s == ">6m" then Some(OverSix)
    else if s == "Exploring" then Some(Exploring)
    else None
  }

  datatype Source = Website | Referral | WalkIn | Call | SourceOther

  const SourceNames: seq<string> := ["Website", "Referral", "Walk-in", "Call", "Other"]

  function SourceName(c: Source): (s: string)
    ensures s in SourceNames
  {
    match c
    case Website => "Website"
    case Referral => "Referral"
    case WalkIn => "Walk-in"
    case Call => "Call"
    case SourceOther => "Other"
  }

  function ParseSource(s: string): (r: Option<Source>)
    ensures r.Some? <==> s in SourceNames
    ensures r.Some? ==> SourceName(r.value) == s
  {
    if s == "Website" then Some(Website)
    else if s == "Referral" then Some(Referral)
    else if s == "Walk-in" then Some(WalkIn)
    else if s == "Call" then Some(Call)
    else if s == "Other" then Some(SourceOther)
    else None
  }

  /**
   * The lifecycle stage of a lead. Any stage may be edited into any other;
   * the application defines the set and the default but no transitions.
   */
  datatype Status = New | Qualified | Contacted | Visited | Negotiation | Converted | Dropped

  const StatusNames: seq<string> :=
    ["New", "Qualified", "Contacted", "Visited", "Negotiation", "Converted", "Dropped"]

  function StatusName(t: Status): (s: string)
    ensures s in StatusNames
  {
    match t
    case New => "New"
    case Qualified => "Qualified"
    case Contacted => "Contacted"
    case Visited => "Visited"
    case Negotiation => "Negotiation"
    case Converted => "Converted"
    case Dropped => "Dropped"
  }

  function ParseStatus(s: string): (r: Option<Status>)
    ensures r.Some? <==> s in StatusNames
    ensures r.Some? ==> StatusName(r.value) == s
  {
    if s == "New" then Some(New)
    else if s == "Qualified" then Some(Qualified)
    else if s == "Contacted" then Some(Contacted)
    else if s == "Visited" then Some(Visited)
    else if s == "Negotiation" then Some(Negotiation)
    else if s == "Converted" then Some(Converted)
    else if s == "Dropped" then Some(Dropped)
    else None
  }

  // ---- the schema -----------------------------------------------------------

  /** The fields of the schema, in declaration order. */
  datatype Field =
    | FullName | Email | Phone | CityField | PropertyTypeField | BhkField | PurposeField
    | BudgetMin | BudgetMax | TimelineField | SourceField | Notes | Tags | StatusField

  function Key(f: Field): string
  {
    match f
    case FullName => "fullName"
    case Email => "email"
    case Phone => "phone"
    case CityField => "city"
    case PropertyTypeField => "propertyType"
    case BhkField => "bhk"
    case PurposeField => "purpose"
    case BudgetMin => "budgetMin"
    case BudgetMax => "budgetMax"
    case TimelineField => "timeline"
    case SourceField => "source"
    case Notes => "notes"
    case Tags => "tags"
    case StatusField => "status"
  }

  /** A successfully parsed lead: every enumerated field typed, status defaulted. */
  datatype BuyerInput = BuyerInput(
    fullName: string,
    email: Option<string>,
    phone: string,
    city: City,
    propertyType: PropertyType,
    bhk: Option<Bhk>,
    purpose: Purpose,
    budgetMin: Option<int>,
    budgetMax: Option<int>,
    timeline: Timeline,
    source: Source,
    notes: Option<string>,
    tags: Option<seq<string>>,
    status: Status)

  const MinNameLength := 2
  const MinPhoneLength := 10
  const MaxPhoneLength := 15
  const MaxNotesLength := 1000

  // The rules, one per field, stated directly over the submitted object.

  /** A required string property whose value is one of `names`. */
  predicate IsOneOf(raw: Row, key: string, names: seq<string>)
  {
    key in raw && raw[key].Str? && raw[key].s in names
  }

  /** An optional string property: absent, or one of `names`. */
  predicate AbsentOrOneOf(raw: Row, key: string, names: seq<string>)
  {
    key !in raw || (raw[key].Str? && raw[key].s in names)
  }

  predicate NameOk(raw: Row)
  {
    "fullName" in raw && raw["fullName"].Str? && |raw["fullName"].s| >= MinNameLength
  }

  predicate EmailOk(raw: Row, isEmail: string -> bool)
  {
    "email" !in raw || (raw["email"].Str? && isEmail(raw["email"].s))
  }

  predicate PhoneOk(raw: Row)
  {
    "phone" in raw && raw["phone"].Str? && MinPhoneLength <= |raw["phone"].s| <= MaxPhoneLength
  }

  /** An optional number: absent, or any number (no range, no min/max relation). */
  predicate NumberOk(raw: Row, key: string)
  {
    key !in raw || raw[key].Num?
  }

  predicate NotesOk(raw: Row)
  {
    "notes" !in raw || (raw["notes"].Str? && |raw["notes"].s| <= MaxNotesLength)
  }

  /** Optional tags: absent, or any list of strings. */
  predicate TagsOk(raw: Row)
  {
    "tags" !in raw || raw["tags"].Strs?
  }

  predicate FieldOk(raw: Row, f: Field, isEmail: string -> bool)
  {
    match f
    case FullName => NameOk(raw)
    case Email => EmailOk(raw, isEmail)
    case Phone => PhoneOk(raw)
    case CityField => IsOneOf(raw, "city", CityNames)
    case PropertyTypeField => IsOneOf(raw, "propertyType", PropertyTypeNames)
    case BhkField => AbsentOrOneOf(raw, "bhk", BhkNames)
    case PurposeField => IsOneOf(raw, "purpose", PurposeNames)
    case BudgetMin => NumberOk(raw, "budgetMin")
    case BudgetMax => NumberOk(raw, "budgetMax")
    case TimelineField => IsOneOf(raw, "timeline", TimelineNames)
    case SourceField => IsOneOf(raw, "source", SourceNames)
    case Notes => NotesOk(raw)
    case Tags => TagsOk(raw)
    case StatusField => AbsentOrOneOf(raw, "status", StatusNames)
  }

  /** True when every rule of the schema holds. */
  predicate AllFieldsOk(raw: Row, isEmail: string -> bool)
  {
    && NameOk(raw) && EmailOk(raw, isEmail) && PhoneOk(raw)
    && IsOneOf(raw, "city", CityNames) && IsOneOf(raw, "propertyType", PropertyTypeNames)
    && AbsentOrOneOf(raw, "bhk", BhkNames) && IsOneOf(raw, "purpose", PurposeNames)
    && NumberOk(raw, "budgetMin") && NumberOk(raw, "budgetMax")
    && IsOneOf(raw, "timeline", TimelineNames) && IsOneOf(raw, "source", SourceNames)
    && NotesOk(raw) && TagsOk(raw) && AbsentOrOneOf(raw, "status", StatusNames)
  }

  // Per-field parsers: `None` is a rejected field; for an optional field
  // `Some(None)` is an absent one.

  function RequiredString(raw: Row, key: string): (r: Option<string>)
    ensures r.Some? <==> key in raw && raw[key].Str?
    ensures r.Some? ==> r.value == raw[key].s
  {
    if key in raw && raw[key].Str? then Some(raw[key].s) else None
  }

  function ParseFullName(raw: Row): (r: Option<string>)
    ensures r.Some? <==> NameOk(raw)
    ensures r.Some? ==> r.value == raw["fullName"].s
  {
    var s := RequiredString(raw, "fullName");
    if s.Some? && |s.value| >= MinNameLength then s else None
  }

  function ParseEmail(raw: Row, isEmail: string -> bool): (r: Option<Option<string>>)
    ensures r.Some? <==> EmailOk(raw, isEmail)
    ensures r.Some? ==> r.value == (if "email" in raw then Some(raw["email"].s) else None)
  {
    if "email" !in raw then Some(None)
    else if raw["email"].Str? && isEmail(raw["email"].s) then Some(Some(raw["email"].s))
    else None
  }

  function ParsePhone(raw: Row): (r: Option<string>)
    ensures r.Some? <==> PhoneOk(raw)
    ensures r.Some? ==> r.value == raw["phone"].s
  {
    var s := RequiredString(raw, "phone");
    if s.Some? && MinPhoneLength <= |s.value| <= MaxPhoneLength then s else None
  }

  function ParseOptionalNumber(raw: Row, key: string): (r: Option<Option<int>>)
    ensures r.Some? <==> NumberOk(raw, key)
    ensures r.Some? ==> r.value == (if key in raw then Some(raw[key].n) else None)
  {
    if key !in raw then Some(None)
    else if raw[key].Num? then Some(Some(raw[key].n))
    else None
  }

  function ParseNotes(raw: Row): (r: Option<Option<string>>)
    ensures r.Some? <==> NotesOk(raw)
    ensures r.Some? ==> r.value == (if "notes" in raw then Some(raw["notes"].s) else None)
  {
    if "notes" !in raw then Some(None)
    else if raw["notes"].Str? && |raw["notes"].s| <= MaxNotesLength then Some(Some(raw["notes"].s))
    else None
  }

  function ParseTags(raw: Row): (r: Option<Option<seq<string>>>)
    ensures r.Some? <==> TagsOk(raw)
    ensures r.Some? ==> r.value == (if "tags" in raw then Some(raw["tags"].items) else None)
  {
    if "tags" !in raw then Some(None)
    else if raw["tags"].Strs? then Some(Some(raw["tags"].items))
    else None
  }

  function ParseCityField(raw: Row): (r: Option<City>)
    ensures r.Some? <==> IsOneOf(raw, "city", CityNames)
    ensures r.Some? ==> raw["city"] == Str(CityName(r.value))
  {
    if "city" in raw && raw["city"].Str? then ParseCity(raw["city"].s) else None
  }

  function ParsePropertyTypeField(raw: Row): (r: Option<PropertyType>)
    ensures r.Some? <==> IsOneOf(raw, "propertyType", PropertyTypeNames)
    ensures r.Some? ==> raw["propertyType"] == Str(PropertyTypeName(r.value))
  {
    if "propertyType" in raw && raw["propertyType"].Str? then ParsePropertyType(raw["propertyType"].s) else None
  }

  function ParseBhkField(raw: Row): (r: Option<Option<Bhk>>)
    ensures r.Some? <==> AbsentOrOneOf(raw, "bhk", BhkNames)
    ensures r.Some? ==> if "bhk" in raw then r.value.Some? && raw["bhk"] == Str(BhkName(r.value.value)) else r.value.None?
  {
    if "bhk" !in raw then Some(None)
    else if raw["bhk"].Str? && ParseBhk(raw["bhk"].s).Some? then Some(ParseBhk(raw["bhk"].s))
    else None
  }

  function ParsePurposeField(raw: Row): (r: Option<Purpose>)
    ensures r.Some? <==> IsOneOf(raw, "purpose", PurposeNames)
    ensures r.Some? ==> raw["purpose"] == Str(PurposeName(r.value))
  {
    if "purpose" in raw && raw["purpose"].Str? then ParsePurpose(raw["purpose"].s) else None
  }

  function ParseTimelineField(raw: Row): (r: Option<Timeline>)
    ensures r.Some? <==> IsOneOf(raw, "timeline", TimelineNames)
    ensures r.Some? ==> raw["timeline"] == Str(TimelineName(r.value))
  {
    if "timeline" in raw && raw["timeline"].Str? then ParseTimeline(raw["timeline"].s) else None
  }

  function ParseSourceField(raw: Row): (r: Option<Source>)
    ensures r.Some? <==> IsOneOf(raw, "source", SourceNames)
    ensures r.Some? ==> raw["source"] == Str(SourceName(r.value))
  {
    if "source" in raw && raw["source"].Str? then ParseSource(raw["source"].s) else None
  }

  /** The status, defaulting to `New` when the property is absent. */
  function ParseStatusField(raw: Row): (r: Option<Status>)
    ensures r.Some? <==> AbsentOrOneOf(raw, "status", StatusNames)
    ensures r.Some? ==> if "status" in raw then raw["status"] == Str(StatusName(r.value)) else r.value == New
  {
    if "status" !in raw then Some(New)
    else if raw["status"].Str? then ParseStatus(raw["status"].s)
    else None
  }

  const AllFields: seq<Field> :=
    [FullName, Email, Phone, CityField, PropertyTypeField, BhkField, PurposeField,
     BudgetMin, BudgetMax, TimelineField, SourceField, Notes, Tags, StatusField]

  /** The fields among `fields` whose rule fails, in order. */
  function Failing(raw: Row, isEmail: string -> bool, fields: seq<Field>): (errors: seq<Field>)
    ensures forall f :: f in errors <==> f in fields && !FieldOk(raw, f, isEmail)
  {
    if |fields| == 0 then []
    else
      (if FieldOk(raw, fields[0], isEmail) then [] else [fields[0]])
      + Failing(raw, isEmail, fields[1..])
  }

  lemma AllFieldsOkMeansEveryField(raw: Row, isEmail: string -> bool)
    ensures AllFieldsOk(raw, isEmail) <==> forall f :: FieldOk(raw, f, isEmail)
  {
    if AllFieldsOk(raw, isEmail) {
      forall f ensures FieldOk(raw, f, isEmail) {
        AllFieldsOkField(raw, isEmail, f);
      }
    } else if forall f :: FieldOk(raw, f, isEmail) {
      EveryFieldOk(raw, isEmail);
    }
  }

  lemma AllFieldsOkField(raw: Row, isEmail: string -> bool, f: Field)
    requires AllFieldsOk(raw, isEmail)
    ensures FieldOk(raw, f, isEmail)
  {
  }

  lemma EveryFieldOk(raw: Row, isEmail: string -> bool)
    requires forall f :: FieldOk(raw, f, isEmail)
    ensures AllFieldsOk(raw, isEmail)
  {
    assert FieldOk(raw, FullName, isEmail) && FieldOk(raw, Email, isEmail);
    assert FieldOk(raw, Phone, isEmail) && FieldOk(raw, CityField, isEmail);
    assert FieldOk(raw, PropertyTypeField, isEmail) && FieldOk(raw, BhkField, isEmail);
    assert FieldOk(raw, PurposeField, isEmail) && FieldOk(raw, BudgetMin, isEmail);
    assert FieldOk(raw, BudgetMax, isEmail) && FieldOk(raw, TimelineField, isEmail);
    assert FieldOk(raw, SourceField, isEmail) && FieldOk(raw, Notes, isEmail);
    assert FieldOk(raw, Tags, isEmail) && FieldOk(raw, StatusField, isEmail);
    ListedFieldsOk(raw, isEmail);
  }

  /** The fourteen field rules, one by one, make up the object rule. */
  lemma ListedFieldsOk(raw: Row, isEmail: string -> bool)
    requires FieldOk(raw, FullName, isEmail) && FieldOk(raw, Email, isEmail)
    requires FieldOk(raw, Phone, isEmail) && FieldOk(raw, CityField, isEmail)
    requires FieldOk(raw, PropertyTypeField, isEmail) && FieldOk(raw, BhkField, isEmail)
    requires FieldOk(raw, PurposeField, isEmail) && FieldOk(raw, BudgetMin, isEmail)
    requires FieldOk(raw, BudgetMax, isEmail) && FieldOk(raw, TimelineField, isEmail)
    requires FieldOk(raw, SourceField, isEmail) && FieldOk(raw, Notes, isEmail)
    requires FieldOk(raw, Tags, isEmail) && FieldOk(raw, StatusField, isEmail)
    ensures AllFieldsOk(raw, isEmail)
  {
  }

  lemma AllFieldsListed(f: Field)
    ensures f in AllFields
  {
    match f
    case FullName => assert AllFields[0] == f;
    case Email => assert AllFields[1] == f;
    case Phone => assert AllFields[2] == f;
    case CityField => assert AllFields[3] == f;
    case PropertyTypeField => assert AllFields[4] == f;
    case BhkField => assert AllFields[5] == f;
    case PurposeField => assert AllFields[6] == f;
    case BudgetMin => assert AllFields[7] == f;
    case BudgetMax => assert AllFields[8] == f;
    case TimelineField => assert AllFields[9] == f;
    case SourceField => assert AllFields[10] == f;
    case Notes => assert AllFields[11] == f;
    case Tags => assert AllFields[12] == f;
    case StatusField => assert AllFields[13] == f;
  }

  /** The typed lead of an object every rule accepts. */
  function Build(raw: Row, isEmail: string -> bool): (b: BuyerInput)
    requires AllFieldsOk(raw, isEmail)
    ensures Reflects(b, raw)
  {
    BuyerInput(ParseFullName(raw).value, ParseEmail(raw, isEmail).value, ParsePhone(raw).value,
               ParseCityField(raw).value, ParsePropertyTypeField(raw).value, ParseBhkField(raw).value,
               ParsePurposeField(raw).value, ParseOptionalNumber(raw, "budgetMin").value,
               ParseOptionalNumber(raw, "budgetMax").value, ParseTimelineField(raw).value,
               ParseSourceField(raw).value, ParseNotes(raw).value, ParseTags(raw).value,
               ParseStatusField(raw).value)
  }

  /**
   * `createBuyer.safeParse(raw)`: the typed, normalised lead when every
   * rule holds, otherwise every failing field, in declaration order.
   */
  function Validate(raw: Row, isEmail: string -> bool): (r: Result<BuyerInput, seq<Field>>)
    ensures r.Success? <==> forall f :: FieldOk(raw, f, isEmail)
    ensures r.Failure? ==> |r.error| > 0 && forall f :: f in r.error <==> !FieldOk(raw, f, isEmail)
    ensures r.Success? ==> Reflects(r.value, raw)
  {
    AllFieldsOkMeansEveryField(raw, isEmail);
    if AllFieldsOk(raw, isEmail) then Success(Build(raw, isEmail))
    else
      var errors := Failing(raw, isEmail, AllFields);
      assert forall f :: f in errors <==> !FieldOk(raw, f, isEmail) by {
        forall f ensures f in AllFields {
          AllFieldsListed(f);
        }
      }
      assert errors != [];
      Failure(errors)
  }

  /** An optional property: absent when `o` is `None`, else holding its value. */
  predicate HasOptional(raw: Row, key: string, o: Option<Value>)
  {
    if o.Some? then Has(raw, key, o.value) else key !in raw
  }

  function OptStr(o: Option<string>): Option<Value>
  {
    if o.Some? then Some(Str(o.value)) else None
  }

  function OptNum(o: Option<int>): Option<Value>
  {
    if o.Some? then Some(Num(o.value)) else None
  }

  function OptBhk(o: Option<Bhk>): Option<Value>
  {
    if o.Some? then Some(Str(BhkName(o.value))) else None
  }

  function OptTags(o: Option<seq<string>>): Option<Value>
  {
    if o.Some? then Some(Strs(o.value)) else None
  }

  /**
   * The parsed lead carries the submitted values unchanged: strings and
   * numbers as given, each enumerated field naming the submitted literal,
   * and the status `New` when none was submitted.
   */
  predicate Reflects(b: BuyerInput, raw: Row)
  {
    && Has(raw, "fullName", Str(b.fullName))
    && HasOptional(raw, "email", OptStr(b.email))
    && Has(raw, "phone", Str(b.phone))
    && Has(raw, "city", Str(CityName(b.city)))
    && Has(raw, "propertyType", Str(PropertyTypeName(b.propertyType)))
    && HasOptional(raw, "bhk", OptBhk(b.bhk))
    && Has(raw, "purpose", Str(PurposeName(b.purpose)))
    && HasOptional(raw, "budgetMin", OptNum(b.budgetMin))
    && HasOptional(raw, "budgetMax", OptNum(b.budgetMax))
    && Has(raw, "timeline", Str(TimelineName(b.timeline)))
    && Has(raw, "source", Str(SourceName(b.source)))
    && HasOptional(raw, "notes", OptStr(b.notes))
    && HasOptional(raw, "tags", OptTags(b.tags))
    && (if "status" in raw then raw["status"] == Str(StatusName(b.status)) else b.status == New)
  }

  /** Each enumerated literal parses back to the value that prints as it. */
  lemma EnumRoundTrips()
    ensures forall c :: ParseCity(CityName(c)) == Some(c)
    ensures forall p :: ParsePropertyType(PropertyTypeName(p)) == Some(p)
    ensures forall x :: ParseBhk(BhkName(x)) == Some(x)
    ensures forall p :: ParsePurpose(PurposeName(p)) == Some(p)
    ensures forall t :: ParseTimeline(TimelineName(t)) == Some(t)
    ensures forall c :: ParseSource(SourceName(c)) == Some(c)
    ensures forall t :: ParseStatus(StatusName(t)) == Some(t)
  {
    forall c ensures ParseCity(CityName(c)) == Some(c) { CityRoundTrip(c); }
    forall p ensures ParsePropertyType(PropertyTypeName(p)) == Some(p) { PropertyTypeRoundTrip(p); }
    forall x ensures ParseBhk(BhkName(x)) == Some(x) { BhkRoundTrip(x); }
    forall p ensures ParsePurpose(PurposeName(p)) == Some(p) { PurposeRoundTrip(p); }
    forall t ensures ParseTimeline(TimelineName(t)) == Some(t) { TimelineRoundTrip(t); }
    forall c ensures ParseSource(SourceName(c)) == Some(c) { SourceRoundTrip(c); }
    forall t ensures ParseStatus(StatusName(t)) == Some(t) { StatusRoundTrip(t); }
  }

  lemma CityRoundTrip(c: City)
    ensures ParseCity(CityName(c)) == Some(c)
  {
  }

  lemma PropertyTypeRoundTrip(p: PropertyType)
    ensures ParsePropertyType(PropertyTypeName(p)) == Some(p)
  {
  }

  lemma BhkRoundTrip(x: Bhk)
    ensures ParseBhk(BhkName(x)) == Some(x)
  {
  }

  lemma PurposeRoundTrip(p: Purpose)
    ensures ParsePurpose(PurposeName(p)) == Some(p)
  {
  }

  lemma TimelineRoundTrip(t: Timeline)
    ensures ParseTimeline(TimelineName(t)) == Some(t)
  {
  }

  lemma SourceRoundTrip(c: Source)
    ensures ParseSource(SourceName(c)) == Some(c)
  {
  }

  lemma StatusRoundTrip(t: Status)
    ensures ParseStatus(StatusName(t)) == Some(t)
  {
  }

  // ---- normalised leads as objects -----------------------------------------

  /** The per-field constraints a typed lead must meet to be accepted. */
  predicate WellFormed(b: BuyerInput, isEmail: string -> bool)
  {
    && |b.fullName| >= MinNameLength
    && (b.email.Some? ==> isEmail(b.email.value))
    && MinPhoneLength <= |b.phone| <= MaxPhoneLength
    && (b.notes.Some? ==> |b.notes.value| <= MaxNotesLength)
  }

  /** The value a typed lead gives property `key`; `None` leaves it out. */
  function PropOf(b: BuyerInput, key: string): Option<Value>
  {
    if key == "fullName" then Some(Str(b.fullName))
    else if key == "email" then OptStr(b.email)
    else if key == "phone" then Some(Str(b.phone))
    else if key == "city" then Some(Str(CityName(b.city)))
    else if key == "propertyType" then Some(Str(PropertyTypeName(b.propertyType)))
    else if key == "bhk" then OptBhk(b.bhk)
    else if key == "purpose" then Some(Str(PurposeName(b.purpose)))
    else if key == "budgetMin" then OptNum(b.budgetMin)
    else if key == "budgetMax" then OptNum(b.budgetMax)
    else if key == "timeline" then Some(Str(TimelineName(b.timeline)))
    else if key == "source" then Some(Str(SourceName(b.source)))
    else if key == "notes" then OptStr(b.notes)
    else if key == "tags" then OptTags(b.tags)
    else if key == "status" then Some(Str(StatusName(b.status)))
    else None
  }

  /** The object a typed lead prints as, with the status always present. */
  function ToRaw(b: BuyerInput): (raw: Row)
    ensures Reflects(b, raw)
  {
    var keys := {"fullName", "email", "phone", "city", "propertyType", "bhk", "purpose",
                 "budgetMin", "budgetMax", "timeline", "source", "notes", "tags", "status"};
    map k | k in keys && PropOf(b, k).Some? :: PropOf(b, k).value
  }

  /** At most one typed lead reflects a given object. */
  lemma ReflectsUnique(b: BuyerInput, c: BuyerInput, raw: Row)
    requires Reflects(b, raw) && Reflects(c, raw)
    ensures b == c
  {
    EnumRoundTrips();
    assert ParseCity(CityName(b.city)) == ParseCity(CityName(c.city));
    assert ParsePropertyType(PropertyTypeName(b.propertyType)) == ParsePropertyType(PropertyTypeName(c.propertyType));
    assert ParsePurpose(PurposeName(b.purpose)) == ParsePurpose(PurposeName(c.purpose));
    assert ParseTimeline(TimelineName(b.timeline)) == ParseTimeline(TimelineName(c.timeline));
    assert ParseSource(SourceName(b.source)) == ParseSource(SourceName(c.source));
    if b.bhk.Some? {
      assert ParseBhk(BhkName(b.bhk.value)) == ParseBhk(BhkName(c.bhk.value));
    }
    if "status" in raw {
      assert ParseStatus(StatusName(b.status)) == ParseStatus(StatusName(c.status));
    }
  }

  /** A well-formed typed lead, printed as an object, parses back to itself. */
  lemma ValidateToRaw(b: BuyerInput, isEmail: string -> bool)
    requires WellFormed(b, isEmail)
    ensures Validate(ToRaw(b), isEmail) == Success(b)
  {
    var raw := ToRaw(b);
    assert AllFieldsOk(raw, isEmail);
    AllFieldsOkMeansEveryField(raw, isEmail);
    ReflectsUnique(Validate(raw, isEmail).value, b, raw);
  }

  /** Whatever the schema accepts meets the per-field constraints. */
  lemma ValidatedIsWellFormed(raw: Row, isEmail: string -> bool)
    requires Validate(raw, isEmail).Success?
    ensures WellFormed(Validate(raw, isEmail).value, isEmail)
  {
    assert FieldOk(raw, FullName, isEmail) && FieldOk(raw, Email, isEmail);
    assert FieldOk(raw, Phone, isEmail) && FieldOk(raw, Notes, isEmail);
  }

  /** Normalising is idempotent: the printed form of a parsed lead parses to the same lead. */
  lemma NormaliseIdempotent(raw: Row, isEmail: string -> bool)
    requires Validate(raw, isEmail).Success?
    ensures Validate(ToRaw(Validate(raw, isEmail).value), isEmail) == Validate(raw, isEmail)
  {
    ValidatedIsWellFormed(raw, isEmail);
    ValidateToRaw(Validate(raw, isEmail).value, isEmail);
  }

  /**
   * `bhk` is checked on its own: an accepted lead stays accepted whatever
   * listed property type it is given, a Plot with three bedrooms included.
   */
  lemma BhkIgnoresPropertyType(raw: Row, isEmail: string -> bool, pt: string)
    requires Validate(raw, isEmail).Success?
    requires pt in PropertyTypeNames
    ensures Validate(raw["propertyType" := Str(pt)], isEmail).Success?
  {
    var raw' := raw["propertyType" := Str(pt)];
    AllFieldsOkMeansEveryField(raw, isEmail);
    assert AllFieldsOk(raw', isEmail);
    AllFieldsOkMeansEveryField(raw', isEmail);
  }

  /**
   * The budgets are independent optional numbers: an accepted lead stays
   * accepted with any minimum and maximum, a minimum above the maximum included.
   */
  lemma BudgetsUnrelated(raw: Row, isEmail: string -> bool, lo: int, hi: int)
    requires Validate(raw, isEmail).Success?
    ensures Validate(raw["budgetMin" := Num(lo)]["budgetMax" := Num(hi)], isEmail).Success?
  {
    var raw' := raw["budgetMin" := Num(lo)]["budgetMax" := Num(hi)];
    AllFieldsOkMeansEveryField(raw, isEmail);
    assert AllFieldsOk(raw', isEmail);
    AllFieldsOkMeansEveryField(raw', isEmail);
  }

  /**
   * A lead for a Plot with bhk "3", a minimum budget of 5000000 and a
   * maximum of 1000000, and no status.
   */
  const PlotLead: Row := map[
    "fullName" := Str("Asha Kapoor"), "phone" := Str("9876543210"), "city" := Str("Mohali"),
    "propertyType" := Str("Plot"), "bhk" := Str("3"), "purpose" := Str("Buy"),
    "budgetMin" := Num(5000000), "budgetMax" := Num(1000000),
    "timeline" := Str("0-3m"), "source" := Str("Website")]

  /** The schema accepts `PlotLead`, with status `New` and three bedrooms. */
  lemma PlotLeadAccepted(isEmail: string -> bool)
    ensures Validate(PlotLead, isEmail).Success?
    ensures Validate(PlotLead, isEmail).value.status == New
    ensures Validate(PlotLead, isEmail).value.bhk == Some(Three)
  {
    var b := BuyerInput("Asha Kapoor", None, "9876543210", Mohali, Plot, Some(Three), Buy,
                        Some(5000000), Some(1000000), ZeroToThree, Website, None, None, New);
    PlotLeadFieldsOk(isEmail);
    AllFieldsOkMeansEveryField(PlotLead, isEmail);
    PlotLeadReflects(b);
    ReflectsUnique(Validate(PlotLead, isEmail).value, b, PlotLead);
  }

  lemma PlotLeadFieldsOk(isEmail: string -> bool)
    ensures AllFieldsOk(PlotLead, isEmail)
  {
    assert "email" !in PlotLead && "notes" !in PlotLead && "tags" !in PlotLead && "status" !in PlotLead;
  }

  lemma PlotLeadReflects(b: BuyerInput)
    requires b == BuyerInput("Asha Kapoor", None, "9876543210", Mohali, Plot, Some(Three), Buy,
                             Some(5000000), Some(1000000), ZeroToThree, Website, None, None, New)
    ensures Reflects(b, PlotLead)
  {
    assert "email" !in PlotLead && "notes" !in PlotLead && "tags" !in PlotLead && "status" !in PlotLead;
  }
}

=== FILE: form_fields.dfy ===
/**
 * What the registration and login forms share: the values typed so far,
 * one error message per field ("" for none), the outcome of the field
 * checks, and the `buyers` account row both pages read or write.
 */
module FormFields {

  type Fields = map<string, string>

  /** A field's text; a field never typed into reads as empty. */
  function Get(m: Fields, key: string): string
  {
    if key in m then m[key] else ""
  }

  datatype FormState = FormState(values: Fields, errors: Fields)

  /** True when some field carries an error message. */
  predicate AnyError(errors: Fields)
  {
    exists k :: k in errors && errors[k] != ""
  }

  /** The new errors, and whether any check failed. */
  datatype Checked = Checked(errors: Fields, hasError: bool)

  /** A row of the `buyers` table: an account. The password is stored as typed. */
  datatype Account = Account(name: string, password: string, timeline: string, ownerid: string, updatedat: string)

  /**
   * `handleChange`: stores the typed text and clears the error of that
   * field only; every other value and error stays as it was.
   */
  function HandleChange(st: FormState, name: string, value: string): (r: FormState)
    ensures Get(r.values, name) == value && name in r.errors && r.errors[name] == ""
    ensures forall k :: k != name ==> Get(r.values, k) == Get(st.values, k)
    ensures forall k :: k != name ==> (k in r.errors <==> k in st.errors)
    ensures forall k :: k != name && k in st.errors ==> r.errors[k] == st.errors[k]
  {
    FormState(st.values[name := value], st.errors[name := ""])
  }
}

=== FILE: lead_list.dfy ===
/**
 * The "View/Edit" list of the signed-in owner's leads (app/buyers/UserData.tsx):
 * loading the owner's rows, and the single-record edit controller with its
 * edit, cancel, field-change, save and delete transitions. The store's
 * answer to each request is a parameter.
 */
module LeadList {
  import opened Wrappers
  import opened Rows
  import SessionToken

  // ---- loading ---------------------------------------------------------------

  /** The store's answer to a select: rows, no data, or an error message. */
  datatype Fetch = Data(rows: seq<Row>) | NoData | FetchError(message: string)

  /**
   * The outcome of loading: the owner id the select was issued for (none
   * when the cookie stopped it), the rows shown, and the error shown.
   */
  datatype Loaded = Loaded(query: Option<string>, buyers: seq<Row>, error: Option<string>)

  function LoadMine(cookie: Option<string>, response: Fetch): (r: Loaded)
    ensures SessionToken.Missing(cookie) ==>
      r == Loaded(None, [], Some("User not logged in."))
    ensures r.query.Some? <==> SessionToken.OwnerId(cookie).Success?
    ensures r.query.Some? ==> r.query.value == SessionToken.OwnerId(cookie).value
    ensures r.query.None? ==> r.buyers == [] && r.error.Some?
    ensures !SessionToken.Missing(cookie) && r.query.None? ==> r.error == Some("Invalid cookie format.")
    ensures r.query.Some? && response.Data? ==> r == Loaded(r.query, response.rows, None)
    ensures r.query.Some? && response.NoData? ==> r.buyers == [] && r.error.None?
    ensures r.query.Some? && response.FetchError? ==> r.buyers == [] && r.error == Some(response.message)
  {
    match SessionToken.OwnerId(cookie)
    case Failure(e) => Loaded(None, [], Some(SessionToken.Message(e)))
    case Success(owner) =>
      match response
      case Data(rows) => Loaded(Some(owner), rows, None)
      case NoData => Loaded(Some(owner), [], None)
      case FetchError(m) => Loaded(Some(owner), [], Some(m))
  }

  // ---- the edit controller ----------------------------------------------------

  datatype PopupKind = SuccessPopup | ErrorPopup

  datatype Popup = Popup(message: string, kind: PopupKind)

  /**
   * `buyers`, `editingId`, `editForm` and `popup`. Edit mode is a single
   * optional id, so at most one record is being edited at any time.
   */
  datatype ListState = ListState(
    buyers: seq<Row>,
    editingId: Option<int>,
    editForm: Row,
    popup: Option<Popup>)

  /** The rows currently shown in edit mode. */
  predicate InEditMode(st: ListState, row: Row)
  {
    st.editingId.Some? && HasId(row, st.editingId.value)
  }

  /** Store ids are unique within the list. */
  predicate UniqueIds(buyers: seq<Row>)
  {
    && (forall i :: 0 <= i < |buyers| ==> IsLead(buyers[i]))
    && (forall i, j :: 0 <= i < j < |buyers| ==> LeadId(buyers[i]) != LeadId(buyers[j]))
  }

  /** `handleEdit(buyer)`: the draft becomes a copy of `buyer`, replacing any earlier draft. */
  function Edit(st: ListState, buyer: Row): (r: ListState)
    requires IsLead(buyer)
    ensures r.buyers == st.buyers && r.popup == st.popup
    ensures r.editingId == Some(LeadId(buyer)) && r.editForm == buyer
  {
    st.(editingId := Some(LeadId(buyer)), editForm := buyer)
  }

  /** Editing a listed record of a list with unique ids puts exactly that record in edit mode. */
  lemma EditSelectsOne(st: ListState, buyer: Row)
    requires UniqueIds(st.buyers) && buyer in st.buyers
    ensures forall row :: row in st.buyers ==> (InEditMode(Edit(st, buyer), row) <==> row == buyer)
  {
    var r := Edit(st, buyer);
    forall row | row in st.buyers
      ensures InEditMode(r, row) <==> row == buyer
    {
      var i :| 0 <= i < |st.buyers| && st.buyers[i] == row;
      var j :| 0 <= j < |st.buyers| && st.buyers[j] == buyer;
      assert i < j || j < i ==> LeadId(st.buyers[i]) != LeadId(st.buyers[j]);
    }
  }

  /** `handleCancel`: leaves edit mode and drops the draft; the list is untouched. */
  function Cancel(st: ListState): (r: ListState)
    ensures r.buyers == st.buyers && r.popup == st.popup
    ensures r.editingId.None? && r.editForm == map[]
    ensures forall row :: !InEditMode(r, row)
  {
    st.(editingId := None, editForm := map[])
  }

  /** `handleChange`: sets the named property of the draft to the typed text. */
  function Change(st: ListState, name: string, value: string): (r: ListState)
    ensures r.buyers == st.buyers && r.editingId == st.editingId && r.popup == st.popup
    ensures name in r.editForm && r.editForm[name] == Str(value)
    ensures forall k :: k != name ==> (k in r.editForm <==> k in st.editForm)
    ensures forall k :: k != name && k in st.editForm ==> r.editForm[k] == st.editForm[k]
  {
    st.(editForm := st.editForm[name := Str(value)])
  }

  /** Every record with the given id overlaid by `form` (`{ ...b, ...form }`); the rest as they were. */
  function Patch(buyers: seq<Row>, id: int, form: Row): (r: seq<Row>)
    ensures |r| == |buyers|
    ensures forall i :: 0 <= i < |buyers| && HasId(buyers[i], id) ==> r[i] == buyers[i] + form
    ensures forall i :: 0 <= i < |buyers| && !HasId(buyers[i], id) ==> r[i] == buyers[i]
  {
    if |buyers| == 0 then []
    else [if HasId(buyers[0], id) then buyers[0] + form else buyers[0]] + Patch(buyers[1..], id, form)
  }

  /** Every record without the given id, in their original order. */
  function Remove(buyers: seq<Row>, id: int): (r: seq<Row>)
    ensures forall row :: row in r ==> !HasId(row, id) && row in buyers
    ensures forall row :: multiset(r)[row] == if HasId(row, id) then 0 else multiset(buyers)[row]
    ensures IsSubsequence(r, buyers)
  {
    if |buyers| == 0 then []
    else
      var rest := Remove(buyers[1..], id);
      assert buyers == [buyers[0]] + buyers[1..];
      if HasId(buyers[0], id) then rest else [buyers[0]] + rest
  }

  /** `sub` is `s` with some elements dropped and the rest kept in order. */
  predicate IsSubsequence(sub: seq<Row>, s: seq<Row>)
    decreases |s|
  {
    if |sub| == 0 then true
    else if |s| == 0 then false
    else if sub[0] == s[0] then IsSubsequence(sub[1..], s[1..])
    else IsSubsequence(sub, s[1..])
  }

  const UpdatedMessage := " \U{2714} Data updated successfully"
  const DeletedMessage := "Data deleted successfully \U{2714}"

  /** The write requests the list sends to the store's lead table. */
  datatype Request = UpdateLead(id: int, fields: Row) | DeleteLead(id: int)

  /** A handler's effect: the request it sent, if any, and the state afterwards. */
  datatype Step = Step(sent: Option<Request>, state: ListState)

  /**
   * `handleSave(id)`: the draft is sent as an update of the record `id`;
   * `error` is the store's answer. Success patches the list with the draft
   * and leaves edit mode; failure keeps everything and reports the error.
   */
  function Save(st: ListState, id: int, error: Option<string>): (r: Step)
    ensures r.sent == Some(UpdateLead(id, st.editForm))
    ensures error.None? ==> r.state.buyers == Patch(st.buyers, id, st.editForm)
    ensures error.None? ==> r.state.editingId.None? && r.state.editForm == map[]
    ensures error.None? ==> r.state.popup == Some(Popup(UpdatedMessage, SuccessPopup))
    ensures error.Some? ==>
      r.state.buyers == st.buyers && r.state.editingId == st.editingId && r.state.editForm == st.editForm
    ensures error.Some? ==> r.state.popup == Some(Popup("Error saving data: " + error.value, ErrorPopup))
  {
    var sent := Some(UpdateLead(id, st.editForm));
    if error.None? then
      Step(sent, ListState(Patch(st.buyers, id, st.editForm), None, map[], Some(Popup(UpdatedMessage, SuccessPopup))))
    else
      Step(sent, st.(popup := Some(Popup("Error saving data: " + error.value, ErrorPopup))))
  }

  /**
   * `handleDelete(id)`: unless the user confirmed, no request is sent and
   * nothing changes; otherwise the record `id` is deleted and `error` is
   * the store's answer.
   */
  function Delete(st: ListState, id: int, confirmed: bool, error: Option<string>): (r: Step)
    ensures r.sent.Some? <==> confirmed
    ensures r.sent.Some? ==> r.sent.value == DeleteLead(id)
    ensures !confirmed ==> r.state == st
    ensures r.state.editingId == st.editingId && r.state.editForm == st.editForm
    ensures confirmed && error.None? ==> r.state.buyers == Remove(st.buyers, id)
    ensures confirmed && error.None? ==> r.state.popup == Some(Popup(DeletedMessage, SuccessPopup))
    ensures confirmed && error.Some? ==> r.state.buyers == st.buyers
    ensures confirmed && error.Some? ==> r.state.popup == Some(Popup("Error deleting data: " + error.value, ErrorPopup))
  {
    if !confirmed then Step(None, st)
    else if error.None? then
      Step(Some(DeleteLead(id)), st.(buyers := Remove(st.buyers, id), popup := Some(Popup(DeletedMessage, SuccessPopup))))
    else
      Step(Some(DeleteLead(id)), st.(popup := Some(Popup("Error deleting data: " + error.value, ErrorPopup))))
  }

  // ---- properties of the transitions ---------------------------------------------

  /**
   * After a successful save the saved record shows every property of the
   * draft and keeps its other properties; every other record is unchanged.
   */
  lemma SaveReflectsDraft(st: ListState, id: int, i: int)
    requires 0 <= i < |st.buyers|
    ensures var r := Save(st, id, None).state;
      && |r.buyers| == |st.buyers|
      && (HasId(st.buyers[i], id) ==>
            && (forall k :: k in st.editForm ==> k in r.buyers[i] && r.buyers[i][k] == st.editForm[k])
            && (forall k :: k in st.buyers[i] && k !in st.editForm ==> k in r.buyers[i] && r.buyers[i][k] == st.buyers[i][k]))
      && (!HasId(st.buyers[i], id) ==> r.buyers[i] == st.buyers[i])
  {
  }

  /** Editing a record, changing its status and saving it leaves the status changed and nothing else. */
  lemma EditStatusThenSave(st: ListState, buyer: Row, status: string, i: int)
    requires IsLead(buyer) && 0 <= i < |st.buyers| && st.buyers[i] == buyer
    ensures var r := Save(Change(Edit(st, buyer), "status", status), LeadId(buyer), None).state;
      r.buyers[i] == buyer["status" := Str(status)]
  {
    var form := Change(Edit(st, buyer), "status", status).editForm;
    assert form == buyer["status" := Str(status)];
    assert buyer + form == form;
  }

  /** Saving or deleting an id that is not listed leaves the list as it was. */
  lemma {:induction false} AbsentIdUnchanged(buyers: seq<Row>, id: int, form: Row)
    requires forall row :: row in buyers ==> !HasId(row, id)
    ensures Patch(buyers, id, form) == buyers
    ensures Remove(buyers, id) == buyers
  {
    if |buyers| > 0 {
      AbsentIdUnchanged(buyers[1..], id, form);
    }
  }

  /** Deleting the same id twice removes nothing more the second time. */
  lemma RemoveIdempotent(buyers: seq<Row>, id: int)
    ensures Remove(Remove(buyers, id), id) == Remove(buyers, id)
  {
    AbsentIdUnchanged(Remove(buyers, id), id, map[]);
  }

  /** Removing a record keeps the list free of duplicate ids. */
  lemma {:induction false} RemoveKeepsUniqueIds(buyers: seq<Row>, id: int)
    requires UniqueIds(buyers)
    ensures UniqueIds(Remove(buyers, id))
  {
    if |buyers| > 0 {
      var tail := buyers[1..];
      TailUniqueIds(buyers);
      RemoveKeepsUniqueIds(tail, id);
      var rest := Remove(tail, id);
      if !HasId(buyers[0], id) {
        forall row | row in rest ensures LeadId(buyers[0]) != LeadId(row) {
          var m :| 0 <= m < |tail| && tail[m] == row;
          assert tail[m] == buyers[m + 1];
        }
        ConsUniqueIds(buyers[0], rest);
      }
    }
  }

  lemma TailUniqueIds(buyers: seq<Row>)
    requires UniqueIds(buyers) && |buyers| > 0
    ensures UniqueIds(buyers[1..])
  {
    var tail := buyers[1..];
    forall i, j | 0 <= i < j < |tail| ensures LeadId(tail[i]) != LeadId(tail[j]) {
      assert tail[i] == buyers[i + 1] && tail[j] == buyers[j + 1];
    }
  }

  lemma ConsUniqueIds(x: Row, rest: seq<Row>)
    requires IsLead(x) && UniqueIds(rest)
    requires forall row :: row in rest ==> LeadId(x) != LeadId(row)
    ensures UniqueIds([x] + rest)
  {
    var r := [x] + rest;
    forall i, j | 0 <= i < j < |r| ensures LeadId(r[i]) != LeadId(r[j]) {
      assert r[j] == rest[j - 1];
      if i > 0 {
        assert r[i] == rest[i - 1];
      }
    }
  }
}

=== FILE: lead_search.dfy ===
/**
 * The "All Buyers" page (app/buyers/page.tsx): the signed-in gate on
 * loading, and the free-text search over the loaded leads.
 */
module LeadSearch {
  import opened Wrappers
  import opened Text
  import opened Rows
  import SessionToken
  import LeadList

  /**
   * Loading every lead: only the presence of a cookie is checked, and the
   * select is not scoped to the owner. `query` tells whether it was issued.
   */
  datatype LoadedAll = LoadedAll(query: bool, buyers: seq<Row>, error: Option<string>)

  function LoadAll(cookie: Option<string>, response: LeadList.Fetch): (r: LoadedAll)
    ensures r.query <==> !SessionToken.Missing(cookie)
    ensures !r.query ==> r.buyers == [] && r.error == Some("User not logged in.")
    ensures r.query && response.Data? ==> r.buyers == response.rows && r.error.None?
    ensures r.query && response.NoData? ==> r.buyers == [] && r.error.None?
    ensures r.query && response.FetchError? ==> r.buyers == [] && r.error == Some(response.message)
  {
    if SessionToken.Missing(cookie) then LoadedAll(false, [], Some("User not logged in."))
    else
      match response
      case Data(rows) => LoadedAll(true, rows, None)
      case NoData => LoadedAll(true, [], None)
      case FetchError(m) => LoadedAll(true, [], Some(m))
  }

  /**
   * The all-leads gate is weaker than the owner's list: whenever the list
   * of one's own leads is loaded, so is the list of all leads, and both
   * show the same store answer.
   */
  lemma OwnListImpliesAllLeads(cookie: Option<string>, response: LeadList.Fetch)
    requires LeadList.LoadMine(cookie, response).query.Some?
    ensures LoadAll(cookie, response).query
    ensures LoadAll(cookie, response).buyers == LeadList.LoadMine(cookie, response).buyers
    ensures LoadAll(cookie, response).error == LeadList.LoadMine(cookie, response).error
  {
  }

  /**
   * A cookie holding a single word and no owner id is refused by the
   * owner's list but lets the all-leads page load every lead.
   */
  lemma MalformedCookieSeesAllLeads(word: string, response: LeadList.Fetch)
    requires word != "" && SessionToken.Separator !in word
    ensures LeadList.LoadMine(Some(word), response) == LeadList.Loaded(None, [], Some("Invalid cookie format."))
    ensures LoadAll(Some(word), response).query
  {
    SplitNoSeparator(word, SessionToken.Separator);
  }

  /** The text searched: name, city, property type and purpose, space-separated. */
  function Haystack(row: Row): string
  {
    Render(row, "full_name") + " " + Render(row, "city") + " "
    + Render(row, "property_type") + " " + Render(row, "purpose")
  }

  /** A lead is kept when its lower-cased text contains the lower-cased term. */
  predicate Matches(row: Row, term: string)
  {
    Contains(ToLower(Haystack(row)), ToLower(term))
  }

  /** `filteredBuyers`: the leads that match, in their original order. */
  function Filter(buyers: seq<Row>, term: string): (r: seq<Row>)
    ensures forall row :: row in r ==> Matches(row, term)
    ensures forall row :: multiset(r)[row] == if Matches(row, term) then multiset(buyers)[row] else 0
    ensures LeadList.IsSubsequence(r, buyers)
  {
    if |buyers| == 0 then []
    else
      var rest := Filter(buyers[1..], term);
      assert buyers == [buyers[0]] + buyers[1..];
      if Matches(buyers[0], term) then [buyers[0]] + rest else rest
  }

  /** An empty search keeps every lead. */
  lemma {:induction false} EmptyTermKeepsAll(buyers: seq<Row>)
    ensures Filter(buyers, "") == buyers
  {
    if |buyers| > 0 {
      assert Matches(buyers[0], "") by {
        assert ToLower("") == "";
        ContainsEmpty(ToLower(Haystack(buyers[0])));
      }
      EmptyTermKeepsAll(buyers[1..]);
      assert Filter(buyers, "") == [buyers[0]] + Filter(buyers[1..], "");
      assert buyers == [buyers[0]] + buyers[1..];
    }
  }

  /** Searching the result again with the same term changes nothing. */
  lemma {:induction false} FilterIdempotent(buyers: seq<Row>, term: string)
    ensures Filter(Filter(buyers, term), term) == Filter(buyers, term)
  {
    if |buyers| > 0 {
      FilterIdempotent(buyers[1..], term);
    }
  }

  /** The search ignores the case of the term. */
  lemma CaseInsensitive(buyers: seq<Row>, term: string)
    ensures Filter(buyers, ToLower(term)) == Filter(buyers, term)
  {
    ToLowerIdempotent(term);
    assert forall row :: Matches(row, ToLower(term)) == Matches(row, term);
    FilterSameMatches(buyers, ToLower(term), term);
  }

  lemma {:induction false} FilterSameMatches(buyers: seq<Row>, t1: string, t2: string)
    requires forall row :: Matches(row, t1) == Matches(row, t2)
    ensures Filter(buyers, t1) == Filter(buyers, t2)
  {
    if |buyers| > 0 {
      FilterSameMatches(buyers[1..], t1, t2);
    }
  }
}

=== FILE: login_form.dfy ===
/**
 * The login form (app/buyers/new/login/page.tsx): both required-field
 * errors collected, the account lookup by name and password only when
 * there are none, and the `user` cookie written from the account found.
 * The store's answer is a parameter.
 */
module LoginForm {
  import opened Wrappers
  import opened FormFields
  import SessionToken
  import RegisterForm

  const NameRequired := "Name is required"
  const PasswordRequired := "Password is required"
  const InvalidCredentials := "Invalid name or password"

  const EmptyErrors: Fields := map["name" := "", "password" := ""]

  function Check(form: Fields): (r: Checked)
    ensures r.errors.Keys == EmptyErrors.Keys
    ensures r.errors["name"] == NameRequired <==> Get(form, "name") == ""
    ensures r.errors["name"] == "" <==> Get(form, "name") != ""
    ensures r.errors["password"] == PasswordRequired <==> Get(form, "password") == ""
    ensures r.errors["password"] == "" <==> Get(form, "password") != ""
    ensures r.hasError <==> AnyError(r.errors)
  {
    var name := Get(form, "name");
    var password := Get(form, "password");
    var e1 := if name == "" then EmptyErrors["name" := NameRequired] else EmptyErrors;
    var e2 := if password == "" then e1["password" := PasswordRequired] else e1;
    var hasError := name == "" || password == "";
    assert hasError ==> AnyError(e2) by {
      if name == "" {
        assert e2["name"] != "";
      } else if password == "" {
        assert e2["password"] != "";
      }
    }
    Checked(e2, hasError)
  }

  /**
   * The outcome of submitting: the errors shown, the name and password
   * looked up (none when a field was empty), the cookie set and the alert raised.
   */
  datatype LoggedIn = LoggedIn(errors: Fields, query: Option<(string, string)>, cookie: Option<string>, alert: Option<string>)

  /**
   * `handleSubmit`, given the store's answer to the lookup: the matching
   * account, or `None` for an error or no match.
   */
  function Submit(form: Fields, found: Option<Account>): (r: LoggedIn)
    ensures r.errors == Check(form).errors
    ensures r.query.Some? <==> !AnyError(r.errors)
    ensures r.query.Some? ==> r.query.value == (Get(form, "name"), Get(form, "password"))
    ensures r.cookie.Some? <==> r.query.Some? && found.Some?
    ensures r.cookie.Some? ==> r.cookie.value == SessionToken.Format(found.value.name, found.value.ownerid)
    ensures r.alert.Some? <==> r.query.Some? && found.None?
    ensures r.alert.Some? ==> r.alert.value == InvalidCredentials
  {
    var checked := Check(form);
    if checked.hasError then LoggedIn(checked.errors, None, None, None)
    else
      var query := Some((Get(form, "name"), Get(form, "password")));
      match found
      case None => LoggedIn(checked.errors, query, None, Some(InvalidCredentials))
      case Some(account) =>
        LoggedIn(checked.errors, query, Some(SessionToken.Format(account.name, account.ownerid)), None)
  }

  /**
   * Logging in with the name and password just registered, when the
   * lookup returns the registered account, sets the same cookie that
   * registration set.
   */
  lemma RegisterThenLogin(reg: Fields, newUserId: string, now: string, login: Fields)
    requires RegisterForm.Submit(reg, newUserId, now, None).cookie.Some?
    requires Get(login, "name") == Get(reg, "name") && Get(login, "password") == Get(reg, "password")
    ensures var registered := RegisterForm.Submit(reg, newUserId, now, None);
      Submit(login, registered.insert).cookie == registered.cookie
  {
    var registered := RegisterForm.Submit(reg, newUserId, now, None);
    assert RegisterForm.Check(reg).errors["name"] == "";
    assert RegisterForm.Check(reg).errors["password"] == "";
  }
}

=== FILE: navbar.dfy ===
/**
 * The navigation bar (app/navbar.tsx): validating the `user` cookie against
 * the accounts on load, logging out, highlighting the active link and
 * closing the menu on navigation. Route changes are recorded, not performed.
 */
module Navbar {
  import opened Wrappers
  import SessionToken

  datatype User = User(name: string, userId: string)

  /**
   * `menuOpen`, `activeUrl` and `user`, plus the cookie as the bar sees it
   * and the last route pushed.
   */
  datatype NavState = NavState(
    menuOpen: bool,
    activeUrl: string,
    user: Option<User>,
    cookie: Option<string>,
    route: Option<string>)

  /** The outcome of the session check: the account looked up, if any, and the new state. */
  datatype SessionCheck = SessionCheck(query: Option<User>, state: NavState)

  /**
   * The load effect. `found` is whether the store has an account with the
   * looked-up name and owner id.
   */
  function CheckSession(st: NavState, found: bool): (r: SessionCheck)
    ensures SessionToken.Missing(st.cookie) ==> r.query.None? && r.state.user.None?
    ensures r.query.Some? <==> SessionToken.NavbarCredentials(st.cookie).Some?
    ensures r.query.Some? ==>
      r.query.value == User(SessionToken.NavbarCredentials(st.cookie).value.0,
                            SessionToken.NavbarCredentials(st.cookie).value.1)
    ensures r.state.user.Some? <==> r.query.Some? && found
    ensures r.state.user.Some? ==> r.state.user == r.query
    ensures r.state.cookie.None? <==> st.cookie.None? || (r.query.Some? && !found)
    ensures r.state.cookie.Some? ==> r.state.cookie == st.cookie
    ensures r.state.menuOpen == st.menuOpen && r.state.activeUrl == st.activeUrl && r.state.route == st.route
  {
    match SessionToken.NavbarCredentials(st.cookie)
    case None => SessionCheck(None, st.(user := None))
    case Some((name, userId)) =>
      if found then SessionCheck(Some(User(name, userId)), st.(user := Some(User(name, userId))))
      else SessionCheck(Some(User(name, userId)), st.(user := None, cookie := None))
  }

  const LoginRoute := "/buyers/new/login"

  /** `handleLogout`: removes the cookie, forgets the user and goes to the login page. */
  function Logout(st: NavState): (r: NavState)
    ensures r.cookie.None? && r.user.None? && r.route == Some(LoginRoute)
    ensures r.menuOpen == st.menuOpen && r.activeUrl == st.activeUrl
  {
    st.(cookie := None, user := None, route := Some(LoginRoute))
  }

  /** `handleNavClick(url)`: goes to `url` and closes the menu. */
  function NavClick(st: NavState, url: string): (r: NavState)
    ensures !r.menuOpen && r.route == Some(url)
    ensures r.user == st.user && r.cookie == st.cookie && r.activeUrl == st.activeUrl
  {
    st.(route := Some(url), menuOpen := false)
  }

  /**
   * The pathname effect: the link of the new path, and only that one, is
   * highlighted; the menu, the session and the route are untouched.
   */
  function PathChanged(st: NavState, pathname: string): (r: NavState)
    ensures forall u :: IsActive(r, u) <==> u == pathname
    ensures r.menuOpen == st.menuOpen && r.user == st.user && r.cookie == st.cookie && r.route == st.route
  {
    st.(activeUrl := pathname)
  }

  /** `isActive(url)`: whether the link to `url` is highlighted. */
  predicate IsActive(st: NavState, url: string)
  {
    st.activeUrl == url
  }

  /** In every state exactly one link is highlighted: the one of the active URL. */
  lemma OneActiveLink(st: NavState, u: string, v: string)
    ensures IsActive(st, st.activeUrl)
    ensures IsActive(st, u) && IsActive(st, v) ==> u == v
  {
  }

  /**
   * Once a navigation click has reached its path, the menu is closed and
   * exactly the clicked link is highlighted.
   */
  lemma NavigationHighlightsTarget(st: NavState, url: string)
    ensures var r := PathChanged(NavClick(st, url), url);
      && !r.menuOpen
      && (forall u :: IsActive(r, u) <==> u == url)
  {
  }

  /** After logging out, the next session check looks nothing up and finds no user. */
  lemma LogoutEndsSession(st: NavState, found: bool)
    ensures var r := CheckSession(Logout(st), found);
      r.query.None? && r.state.user.None?
  {
  }

  /**
   * A cookie written for a non-empty name and id free of spaces is looked
   * up as that user, who is signed in exactly when the account exists.
   */
  lemma WrittenCookieSignsIn(st: NavState, name: string, id: string, found: bool)
    requires name != "" && id != "" && ' ' !in name && ' ' !in id
    requires st.cookie == Some(SessionToken.Format(name, id))
    ensures CheckSession(st, found).query == Some(User(name, id))
    ensures CheckSession(st, found).state.user == if found then Some(User(name, id)) else None
  {
    SessionToken.FormatRoundTrip(name, id);
  }

  /**
   * A cookie written for a two-word name is looked up as the two words of
   * the name; no such account exists, so the cookie is removed and no user
   * is signed in.
   */
  lemma SpacedNameSignsOut(st: NavState, first: string, last: string, id: string)
    requires first != "" && last != "" && ' ' !in first && ' ' !in last
    requires st.cookie == Some(SessionToken.Format(first + " " + last, id))
    ensures CheckSession(st, false).query == Some(User(first, last))
    ensures CheckSession(st, false).state.cookie.None? && CheckSession(st, false).state.user.None?
  {
    SessionToken.NavbarReadsSpacedName(first, last, id);
  }
}

=== FILE: new_lead.dfy ===
/**
 * The "new buyer lead" form (app/buyers/new/page.tsx): its default values,
 * the comma-separated tags input, the mapping of the form onto a
 * `buyers_data` row, and the submit flow that resolves the owner before
 * inserting. The form is built without a schema resolver, so the
 * `createBuyer` rules are not applied before submit. The store's answers
 * are parameters.
 */
module NewLead {
  import opened Wrappers
  import opened Text
  import opened Rows
  import SessionToken
  import BuyerSchema

  /** The form's initial values: only the status, "New". */
  const DefaultValues: Row := map["status" := Str("New")]

  // ---- the tags input -------------------------------------------------------------

  const TagSeparator: char := ','

  /**
   * The tags input's `setValueAs`: empty text gives no tags; otherwise the
   * text split on commas, each piece trimmed, empty pieces kept.
   */
  function ParseTagsInput(v: string): (tags: seq<string>)
    ensures v == "" ==> tags == []
    ensures v != "" ==> |tags| == Count(v, TagSeparator) + 1
    ensures forall i :: 0 <= i < |tags| ==> Trimmed(tags[i]) && TagSeparator !in tags[i]
    ensures v != "" ==> forall i :: 0 <= i < |tags| ==> tags[i] == Trim(Split(v, TagSeparator)[i])
  {
    if v == "" then []
    else
      var parts := Split(v, TagSeparator);
      seq(|parts|, i requires 0 <= i < |parts| => Trim(parts[i]))
  }

  /** Tags free of commas and surrounding whitespace, typed comma-separated, are read back unchanged. */
  lemma TagsRoundTrip(tags: seq<string>)
    requires |tags| > 0 && Join(tags, TagSeparator) != ""
    requires forall i :: 0 <= i < |tags| ==> Trimmed(tags[i]) && TagSeparator !in tags[i]
    ensures ParseTagsInput(Join(tags, TagSeparator)) == tags
  {
    SplitJoin(tags, TagSeparator);
    forall i | 0 <= i < |tags| ensures Trim(tags[i]) == tags[i] {
      TrimTrimmed(tags[i]);
    }
  }

  // ---- the inserted row -------------------------------------------------------------

  /** The `buyers_data` columns filled from the form. */
  const FormColumns: set<string> := {
    "full_name", "email", "phone", "city", "property_type", "bhk", "purpose",
    "timeline", "status", "budget_min", "budget_max", "source", "tags", "notes"}

  /** The form property a column takes its value from. */
  function SourceOf(column: string): string
  {
    if column == "full_name" then "fullName"
    else if column == "property_type" then "propertyType"
    else if column == "budget_min" then "budgetMin"
    else if column == "budget_max" then "budgetMax"
    else column
  }

  /** The columns the submit flow fills itself. */
  const OwnerColumns: set<string> := {"owner_id", "owner_external_id", "created_at"}

  /** The value the submit flow writes to `column`; `None` leaves the column out. */
  function ColumnValue(form: Row, ownerId: int, ownerExternalId: string, now: string, column: string): Option<Value>
  {
    if column in FormColumns then
      if SourceOf(column) in form then Some(form[SourceOf(column)]) else None
    else if column == "owner_id" then Some(Num(ownerId))
    else if column == "owner_external_id" then Some(Str(ownerExternalId))
    else if column == "created_at" then Some(Str(now))
    else None
  }

  /**
   * The row inserted for a submitted form: the resolved owner's id, the
   * cookie's owner id, the creation time, and every form property copied
   * unchanged to its column. A property the form leaves undefined is
   * left out of the row.
   */
  function LeadRow(form: Row, ownerId: int, ownerExternalId: string, now: string): (row: Row)
    ensures Has(row, "owner_id", Num(ownerId))
    ensures Has(row, "owner_external_id", Str(ownerExternalId))
    ensures Has(row, "created_at", Str(now))
    ensures forall c :: c in FormColumns ==> (c in row <==> SourceOf(c) in form)
    ensures forall c :: c in FormColumns && c in row ==> row[c] == form[SourceOf(c)]
    ensures row.Keys <= FormColumns + OwnerColumns
  {
    map c | c in FormColumns + OwnerColumns && ColumnValue(form, ownerId, ownerExternalId, now, c).Some?
      :: ColumnValue(form, ownerId, ownerExternalId, now, c).value
  }

  // ---- the submit flow ------------------------------------------------------------

  /** An owner row of `buyers`: the store's numeric id and the external owner id. */
  datatype OwnerRow = OwnerRow(id: int, ownerid: string)

  /** The answer to the owner lookup: the row if any, and the error code if any. */
  datatype OwnerLookup = OwnerLookup(data: Option<OwnerRow>, errorCode: Option<string>)

  /** The answer to the owner insert: the new row if returned, and whether it failed. */
  datatype OwnerCreate = OwnerCreate(data: Option<OwnerRow>, failed: bool)

  /** The store requests a submission makes, in order. */
  datatype StoreCall = FindOwner(ownerExternalId: string) | CreateOwner(ownerExternalId: string) | InsertLead(row: Row)

  /** The requests made, and the success popup or the error shown. */
  datatype Submitted = Submitted(calls: seq<StoreCall>, outcome: Result<string, string>)

  /** The lookup error code meaning "no rows", which is not treated as a failure. */
  const NoRowsCode := "PGRST116"

  const CreatedMessage := "\U{2714} Buyer lead created successfully!"

  predicate LookupFailed(lookup: OwnerLookup)
  {
    lookup.errorCode.Some? && lookup.errorCode.value != NoRowsCode
  }

  /** The owner the lead is filed under: the one found, or else the one just created. */
  function ResolvedOwner(lookup: OwnerLookup, created: OwnerCreate): Option<OwnerRow>
  {
    if lookup.data.Some? then lookup.data
    else if created.failed then None
    else created.data
  }

  function LastCall(s: Submitted): Option<StoreCall>
  {
    if |s.calls| == 0 then None else Some(s.calls[|s.calls| - 1])
  }


  /** `onSubmit(form)`: the cookie is read first, and a bad one stops the flow before any request. */
  function Submit(form: Row, cookie: Option<string>, lookup: OwnerLookup, created: OwnerCreate,
                  insertError: Option<string>, now: string): (r: Submitted)
    ensures SessionToken.OwnerId(cookie).Failure? ==>
      r == Submitted([], Failure(SessionToken.Message(SessionToken.OwnerId(cookie).error)))
    ensures SessionToken.OwnerId(cookie).Success? ==>
      r == SubmitFor(form, SessionToken.OwnerId(cookie).value, lookup, created, insertError, now)
  {
    match SessionToken.OwnerId(cookie)
    case Failure(e) => Submitted([], Failure(SessionToken.Message(e)))
    case Success(ext) => SubmitFor(form, ext, lookup, created, insertError, now)
  }

  /**
   * The flow once the cookie has given the owner id `ext`: look the owner
   * up, create it if absent, then insert the lead filed under it.
   */
  function SubmitFor(form: Row, ext: string, lookup: OwnerLookup, created: OwnerCreate,
                     insertError: Option<string>, now: string): (r: Submitted)
    ensures |r.calls| > 0 && r.calls[0] == FindOwner(ext)
    ensures LastCall(r).value.InsertLead? ==> ResolvedOwner(lookup, created).Some?
    ensures LastCall(r).value.InsertLead? ==>
      LastCall(r).value.row == LeadRow(form, ResolvedOwner(lookup, created).value.id, ext, now)
    ensures r.outcome.Success? <==> LastCall(r).value.InsertLead? && insertError.None?
    ensures r.outcome.Success? ==> r.outcome.value == CreatedMessage
    ensures LookupFailed(lookup) ==> r == Submitted([FindOwner(ext)], Failure("Error checking buyer."))
    ensures !LookupFailed(lookup) && lookup.data.None? && created.failed ==>
      r == Submitted([FindOwner(ext), CreateOwner(ext)], Failure("Could not create buyer."))
    ensures !LookupFailed(lookup) && lookup.data.None? && !created.failed && created.data.None? ==>
      r == Submitted([FindOwner(ext), CreateOwner(ext)], Failure("Something went wrong."))
    ensures LastCall(r).value.InsertLead? && insertError.Some? ==> r.outcome == Failure(insertError.value)
    ensures !LookupFailed(lookup) && lookup.data.Some? ==>
      r.calls == [FindOwner(ext), InsertLead(LeadRow(form, lookup.data.value.id, ext, now))]
    ensures !LookupFailed(lookup) && lookup.data.None? && !created.failed && created.data.Some? ==>
      r.calls == [FindOwner(ext), CreateOwner(ext), InsertLead(LeadRow(form, created.data.value.id, ext, now))]
  {
    var find := [FindOwner(ext)];
    if LookupFailed(lookup) then Submitted(find, Failure("Error checking buyer."))
    else if lookup.data.None? && created.failed then
      Submitted(find + [CreateOwner(ext)], Failure("Could not create buyer."))
    else if lookup.data.None? && created.data.None? then
      // the missing row's id is read anyway; the error is caught generically
      Submitted(find + [CreateOwner(ext)], Failure("Something went wrong."))
    else
      var owner := ResolvedOwner(lookup, created).value;
      var before := if lookup.data.None? then find + [CreateOwner(ext)] else find;
      Insert(before, LeadRow(form, owner.id, ext, now), insertError)
  }

  /** The final insert after the requests `before`: its own error, or the success popup. */
  function Insert(before: seq<StoreCall>, row: Row, insertError: Option<string>): (r: Submitted)
    ensures r.calls == before + [InsertLead(row)]
    ensures LastCall(r) == Some(InsertLead(row))
    ensures r.outcome.Success? <==> insertError.None?
    ensures insertError.Some? ==> r.outcome == Failure(insertError.value)
  {
    var calls := before + [InsertLead(row)];
    if insertError.Some? then Submitted(calls, Failure(insertError.value))
    else Submitted(calls, Success(CreatedMessage))
  }

  predicate CreatesOwner(s: Submitted)
  {
    exists i :: 0 <= i < |s.calls| && s.calls[i].CreateOwner?
  }

  predicate InsertsLead(s: Submitted)
  {
    exists i :: 0 <= i < |s.calls| && s.calls[i].InsertLead?
  }

  /**
   * An owner row is created exactly when the lookup neither failed nor
   * found a row; the lead is inserted exactly when, in addition, an owner
   * row is then at hand, and the insert is the last request. The owner is
   * looked up once, first, and created at most once, second.
   */
  lemma SubmitRequests(form: Row, ext: string, lookup: OwnerLookup, created: OwnerCreate,
                       insertError: Option<string>, now: string)
    ensures var r := SubmitFor(form, ext, lookup, created, insertError, now);
      && (CreatesOwner(r) <==> !LookupFailed(lookup) && lookup.data.None?)
      && (InsertsLead(r) <==> !LookupFailed(lookup) && ResolvedOwner(lookup, created).Some?)
      && (InsertsLead(r) <==> LastCall(r).value.InsertLead?)
      && |r.calls| <= 3
      && (forall i :: 0 < i < |r.calls| ==> !r.calls[i].FindOwner?)
      && (forall i :: 0 <= i < |r.calls| && r.calls[i].CreateOwner? ==> i == 1)
  {
    var r := SubmitFor(form, ext, lookup, created, insertError, now);
    var find := FindOwner(ext);
    if LookupFailed(lookup) {
      assert r.calls == [find];
    } else if lookup.data.None? && (created.failed || created.data.None?) {
      assert r.calls == [find, CreateOwner(ext)];
      assert CreatesOwner(r) by { assert r.calls[1].CreateOwner?; }
    } else {
      var row := LeadRow(form, ResolvedOwner(lookup, created).value.id, ext, now);
      assert InsertsLead(r) by { assert r.calls[|r.calls| - 1] == InsertLead(row); }
      if lookup.data.None? {
        assert r.calls == [find, CreateOwner(ext), InsertLead(row)];
        assert CreatesOwner(r) by { assert r.calls[1].CreateOwner?; }
      } else {
        assert r.calls == [find, InsertLead(row)];
      }
    }
  }

  /** The untouched default form fails the schema; its status is "New". */
  lemma DefaultFormRejected(isEmail: string -> bool)
    ensures BuyerSchema.Validate(DefaultValues, isEmail).Failure?
    ensures BuyerSchema.ParseStatus(DefaultValues["status"].s) == Some(BuyerSchema.New)
  {
    assert "fullName" !in DefaultValues;
    assert !BuyerSchema.FieldOk(DefaultValues, BuyerSchema.FullName, isEmail);
  }

  /**
   * The schema is not applied on submit: whatever the form holds, it is
   * inserted once the owner is known, the rejected default form included.
   */
  lemma SchemaNotEnforced(form: Row, cookie: Option<string>, owner: OwnerRow, now: string)
    requires SessionToken.OwnerId(cookie).Success?
    ensures Submit(form, cookie, OwnerLookup(Some(owner), None), OwnerCreate(None, false), None, now).outcome.Success?
  {
  }
}

=== FILE: register_form.dfy ===
/**
 * The registration form (app/buyers/new/register/page.tsx): all field
 * errors computed in one pass, the account insert when there are none, and
 * the `user` cookie written on success. The generated id, the clock and the
 * store's answer are parameters.
 */
module RegisterForm {
  import opened Wrappers
  import opened FormFields
  import SessionToken

  const NameRequired := "Name is required"
  const PasswordRequired := "Password is required"
  const ConfirmRequired := "Confirm password is required"
  const PasswordsDiffer := "Passwords do not match"

  const EmptyErrors: Fields := map["name" := "", "password" := "", "confirmPassword" := ""]

  /** The checks of `handleSubmit`, in the order `handleSubmit` applies them. */
  function Check(form: Fields): (r: Checked)
    ensures r.errors.Keys == EmptyErrors.Keys
    ensures r.errors["name"] == NameRequired <==> Get(form, "name") == ""
    ensures r.errors["name"] == "" <==> Get(form, "name") != ""
    ensures r.errors["password"] == PasswordRequired <==> Get(form, "password") == ""
    ensures r.errors["password"] == "" <==> Get(form, "password") != ""
    ensures r.errors["confirmPassword"] == ConfirmRequired <==> Get(form, "confirmPassword") == ""
    ensures r.errors["confirmPassword"] == PasswordsDiffer <==>
      Get(form, "password") != "" && Get(form, "confirmPassword") != ""
      && Get(form, "password") != Get(form, "confirmPassword")
    ensures r.errors["confirmPassword"] == "" <==>
      Get(form, "confirmPassword") != ""
      && (Get(form, "password") == "" || Get(form, "password") == Get(form, "confirmPassword"))
    ensures r.hasError <==> AnyError(r.errors)
  {
    var name := Get(form, "name");
    var password := Get(form, "password");
    var confirm := Get(form, "confirmPassword");
    var e0 := EmptyErrors;
    var e1 := if name == "" then e0["name" := NameRequired] else e0;
    var e2 := if password == "" then e1["password" := PasswordRequired] else e1;
    var e3 := if confirm == "" then e2["confirmPassword" := ConfirmRequired] else e2;
    var e4 := if password != "" && confirm != "" && password != confirm
              then e3["confirmPassword" := PasswordsDiffer] else e3;
    var hasError := name == "" || password == "" || confirm == ""
                    || (password != "" && confirm != "" && password != confirm);
    assert hasError ==> AnyError(e4) by {
      if name == "" {
        assert e4["name"] != "";
      } else if password == "" {
        assert e4["password"] != "";
      } else if hasError {
        assert e4["confirmPassword"] in {ConfirmRequired, PasswordsDiffer};
        assert e4["confirmPassword"] != "";
      }
    }
    Checked(e4, hasError)
  }

  /**
   * The outcome of submitting: the errors shown, the account inserted if
   * the checks passed, the cookie set, and the alert raised.
   */
  datatype Registered = Registered(errors: Fields, insert: Option<Account>, cookie: Option<string>, alert: Option<string>)

  /** `handleSubmit`, given the generated id, the time, and the store's error if any. */
  function Submit(form: Fields, newUserId: string, now: string, insertError: Option<string>): (r: Registered)
    ensures r.errors == Check(form).errors
    ensures r.insert.Some? <==> !AnyError(r.errors)
    ensures r.insert.Some? ==>
      r.insert.value == Account(Get(form, "name"), Get(form, "password"), "Exploring", newUserId, now)
    ensures r.cookie.Some? <==> r.insert.Some? && insertError.None?
    ensures r.cookie.Some? ==> r.cookie.value == SessionToken.Format(r.insert.value.name, r.insert.value.ownerid)
    ensures r.alert.Some? <==> r.insert.Some? && insertError.Some?
    ensures r.alert.Some? ==> r.alert.value == "Error registering: " + insertError.value
  {
    var checked := Check(form);
    if checked.hasError then Registered(checked.errors, None, None, None)
    else
      var account := Account(Get(form, "name"), Get(form, "password"), "Exploring", newUserId, now);
      if insertError.Some? then
        Registered(checked.errors, Some(account), None, Some("Error registering: " + insertError.value))
      else
        Registered(checked.errors, Some(account), Some(SessionToken.Format(Get(form, "name"), newUserId)), None)
  }

  /**
   * Every problem is reported at once: a form with all three fields empty
   * gets all three messages, and no account is inserted.
   */
  lemma AllErrorsReported(form: Fields, newUserId: string, now: string, insertError: Option<string>)
    requires Get(form, "name") == "" && Get(form, "password") == "" && Get(form, "confirmPassword") == ""
    ensures var r := Submit(form, newUserId, now, insertError);
      && r.errors == map["name" := NameRequired, "password" := PasswordRequired, "confirmPassword" := ConfirmRequired]
      && r.insert.None? && r.cookie.None?
  {
    var e := Check(form).errors;
    assert e.Keys == {"name", "password", "confirmPassword"};
  }

  /**
   * A form with a name, a password and a matching confirmation passes every
   * check, so the account is inserted, and the cookie is written unless the
   * store reports an error.
   */
  lemma FilledFormRegisters(form: Fields, newUserId: string, now: string, insertError: Option<string>)
    requires Get(form, "name") != "" && Get(form, "password") != ""
    requires Get(form, "confirmPassword") == Get(form, "password")
    ensures var r := Submit(form, newUserId, now, insertError);
      && r.errors == EmptyErrors
      && r.insert == Some(Account(Get(form, "name"), Get(form, "password"), "Exploring", newUserId, now))
      && (r.cookie.Some? <==> insertError.None?)
  {
  }

  /**
   * After a successful registration with a name free of spaces, the lead
   * pages and the navigation bar both read the generated id back from the cookie.
   */
  lemma RegisteredCookieIdentifies(form: Fields, newUserId: string, now: string)
    requires ' ' !in Get(form, "name") && ' ' !in newUserId && newUserId != ""
    requires Submit(form, newUserId, now, None).cookie.Some?
    ensures var c := Submit(form, newUserId, now, None).cookie;
      && SessionToken.OwnerId(c) == Success(newUserId)
      && SessionToken.NavbarCredentials(c) == Some((Get(form, "name"), newUserId))
  {
    assert !AnyError(Check(form).errors);
    assert Check(form).errors["name"] == "";
    SessionToken.FormatRoundTrip(Get(form, "name"), newUserId);
  }
}

=== FILE: rows.dfy ===
/**
 * Loosely typed records as the application handles them: a form's values,
 * an edit draft and a `buyers_data` row are all plain objects, modelled as
 * maps from property name to a JSON value. A name that is absent from the
 * map is `undefined`.
 */
module Rows {
  import opened Text

  datatype Value = Str(s: string) | Num(n: int) | Strs(items: seq<string>) | Null

  type Row = map<string, Value>

  /** `row` has property `key` holding `v`. */
  predicate Has(row: Row, key: string, v: Value)
  {
    key in row && row[key] == v
  }

  /** The `id === id` test of the list views: an absent id never matches. */
  predicate HasId(row: Row, id: int)
  {
    "id" in row && row["id"] == Num(id)
  }

  /** A row as the store returns it from `buyers_data`: it carries a numeric id. */
  predicate IsLead(row: Row)
  {
    "id" in row && row["id"].Num?
  }

  function LeadId(row: Row): int
    requires IsLead(row)
  {
    row["id"].n
  }

  /** How a property prints inside a template literal. */
  function Render(row: Row, key: string): string
  {
    if key !in row then "undefined"
    else match row[key]
      case Str(s) => s
      case Num(n) => IntToString(n)
      case Strs(items) => Join(items, ',')
      case Null => "null"
  }
}

=== FILE: session_token.dfy ===
/**
 * The `user` cookie: written as `"<name> <ownerId>"` on registration and
 * login, and read back by splitting on single spaces. Two readers exist:
 * the lead pages take the second piece as the owner id, and the navigation
 * bar also insists on a non-empty first piece. The cookie is modelled
 * already URI-decoded; an absent cookie is `None`.
 */
module SessionToken {
  import opened Wrappers
  import opened Text

  const Separator: char := ' '

  /**
   * The cookie value written after a successful registration or login: it
   * splits into the pieces of the name followed by the pieces of the id.
   */
  function Format(name: string, ownerId: string): (cookie: string)
    ensures Split(cookie, Separator) == Split(name, Separator) + Split(ownerId, Separator)
    ensures Join(Split(cookie, Separator), Separator) == cookie
  {
    SplitConcat(name, Separator, ownerId);
    JoinSplit(name + [Separator] + ownerId, Separator);
    name + [Separator] + ownerId
  }

  datatype SessionError = NotLoggedIn | InvalidFormat

  function Message(e: SessionError): string
  {
    match e
    case NotLoggedIn => "User not logged in."
    case InvalidFormat => "Invalid cookie format."
  }

  /** An absent cookie and an empty one are both falsy. */
  predicate Missing(cookie: Option<string>)
  {
    cookie.None? || cookie.value == ""
  }

  /**
   * The owner id read by the lead pages: the second space-separated piece;
   * a missing or empty second piece is a malformed cookie, and further
   * pieces are ignored.
   */
  function OwnerId(cookie: Option<string>): (r: Result<string, SessionError>)
    ensures r == Failure(NotLoggedIn) <==> Missing(cookie)
    ensures r.Success? ==> r.value != "" && Separator !in r.value
    ensures r.Success? ==> exists first, rest :: SecondPiece(cookie.value, first, r.value, rest)
    ensures !Missing(cookie) ==> forall first, id, rest ::
      SecondPiece(cookie.value, first, id, rest) && id != "" ==> r == Success(id)
  {
    if Missing(cookie) then Failure(NotLoggedIn)
    else
      SecondPieceUnique(cookie.value);
      var parts := Split(cookie.value, Separator);
      if |parts| < 2 || parts[1] == "" then Failure(InvalidFormat)
      else
        SecondPieceOfSplit(cookie.value);
        Success(parts[1])
  }

  /**
   * `s` is `first`, a space, `id`, then either nothing or a space followed
   * by anything: `id` is exactly the second space-separated piece.
   */
  predicate SecondPiece(s: string, first: string, id: string, rest: string)
  {
    && Separator !in first && Separator !in id
    && (rest == "" || rest[0] == Separator)
    && s == first + [Separator] + id + rest
  }

  lemma SecondPieceOfSplit(s: string)
    requires |Split(s, Separator)| >= 2
    ensures var parts := Split(s, Separator);
      SecondPiece(s, parts[0], parts[1],
                  if |parts| == 2 then "" else [Separator] + Join(parts[2..], Separator))
  {
    var parts := Split(s, Separator);
    JoinSplit(s, Separator);
    assert Join(parts, Separator) == parts[0] + [Separator] + Join(parts[1..], Separator);
    var tail := parts[1..];
    if |parts| == 2 {
      assert Join(tail, Separator) == parts[1];
    } else {
      assert tail[1..] == parts[2..];
      assert Join(tail, Separator) == parts[1] + [Separator] + Join(parts[2..], Separator);
    }
  }

  /** The first two pieces of a split are the only way to cut `s` as `SecondPiece` does. */
  lemma SecondPieceUnique(s: string)
    ensures forall first, id, rest :: SecondPiece(s, first, id, rest) ==>
      var parts := Split(s, Separator); |parts| >= 2 && parts[0] == first && parts[1] == id
  {
    forall first, id, rest | SecondPiece(s, first, id, rest)
      ensures var parts := Split(s, Separator); |parts| >= 2 && parts[0] == first && parts[1] == id
    {
      assert s == first + [Separator] + (id + rest);
      SplitAfterToken(first, Separator, id + rest);
      if rest == "" {
        assert id + rest == id;
        SplitNoSeparator(id, Separator);
      } else {
        assert id + rest == id + [Separator] + rest[1..];
        SplitAfterToken(id, Separator, rest[1..]);
      }
    }
  }

  /** The user the navigation bar looks up: both of the first two pieces non-empty. */
  function NavbarCredentials(cookie: Option<string>): (r: Option<(string, string)>)
    ensures Missing(cookie) ==> r.None?
    ensures r.Some? ==> r.value.0 != "" && r.value.1 != ""
    ensures r.Some? ==> exists rest :: SecondPiece(cookie.value, r.value.0, r.value.1, rest)
    ensures !Missing(cookie) ==> forall first, id, rest ::
      SecondPiece(cookie.value, first, id, rest) && first != "" && id != "" ==> r == Some((first, id))
  {
    if Missing(cookie) then None
    else
      SecondPieceUnique(cookie.value);
      var parts := Split(cookie.value, Separator);
      if parts[0] == "" || |parts| < 2 || parts[1] == "" then None
      else
        SecondPieceOfSplit(cookie.value);
        Some((parts[0], parts[1]))
  }

  /** A name and id free of spaces survive the trip through the cookie, for both readers. */
  lemma {:induction false} FormatRoundTrip(name: string, id: string)
    requires Separator !in name && Separator !in id && id != ""
    ensures OwnerId(Some(Format(name, id))) == Success(id)
    ensures name != "" ==> NavbarCredentials(Some(Format(name, id))) == Some((name, id))
  {
    SplitAfterToken(name, Separator, id);
    SplitNoSeparator(id, Separator);
  }

  /** Whenever the navigation bar accepts a cookie, the lead pages read the same owner id. */
  lemma ReadersAgree(cookie: Option<string>)
    requires NavbarCredentials(cookie).Some?
    ensures OwnerId(cookie) == Success(NavbarCredentials(cookie).value.1)
  {
  }

  /** The converse fails: a cookie with an empty name is accepted by the lead pages only. */
  lemma ReadersDisagreeOnEmptyName()
    ensures OwnerId(Some(" u1")) == Success("u1")
    ensures NavbarCredentials(Some(" u1")).None?
  {
    SplitAfterToken("", Separator, "u1");
    SplitNoSeparator("u1", Separator);
    assert "" + [Separator] + "u1" == " u1";
  }

  /**
   * A name containing a space breaks the round trip: the owner id read back
   * comes from the name and does not depend on the account's id at all.
   */
  lemma {:induction false} SpacedNameHidesOwnerId(first: string, more: string, id1: string, id2: string)
    requires Separator !in first
    ensures OwnerId(Some(Format(first + [Separator] + more, id1)))
         == OwnerId(Some(Format(first + [Separator] + more, id2)))
  {
    var c1 := Format(first + [Separator] + more, id1);
    var c2 := Format(first + [Separator] + more, id2);
    assert c1 == first + [Separator] + (more + [Separator] + id1);
    assert c2 == first + [Separator] + (more + [Separator] + id2);
    SplitAfterToken(first, Separator, more + [Separator] + id1);
    SplitAfterToken(first, Separator, more + [Separator] + id2);
    SplitFirstPiece(more, Separator, id1);
    SplitFirstPiece(more, Separator, id2);
  }

  /**
   * For a two-word name such as "Asha Kapoor" the owner id read back is the
   * second word of the name ("Kapoor"), whatever the account's id.
   */
  lemma {:induction false} TwoWordNameExample(first: string, last: string, id: string)
    requires Separator !in first && Separator !in last && last != ""
    ensures OwnerId(Some(Format(first + [Separator] + last, id))) == Success(last)
  {
    var c := Format(first + [Separator] + last, id);
    assert c == first + [Separator] + (last + [Separator] + id);
    SplitAfterToken(first, Separator, last + [Separator] + id);
    SplitAfterToken(last, Separator, id);
  }

  /**
   * The navigation bar misreads the same cookie the other way: it looks up
   * the two words of the name as name and owner id.
   */
  lemma {:induction false} NavbarReadsSpacedName(first: string, last: string, id: string)
    requires Separator !in first && Separator !in last && first != "" && last != ""
    ensures NavbarCredentials(Some(Format(first + [Separator] + last, id))) == Some((first, last))
  {
    var c := Format(first + [Separator] + last, id);
    assert c == first + [Separator] + (last + [Separator] + id);
    SplitAfterToken(first, Separator, last + [Separator] + id);
    SplitAfterToken(last, Separator, id);
  }
}

=== FILE: text.dfy ===
/**
 * String helpers with the semantics of the ECMAScript built-ins the
 * application uses: `String.prototype.split` with a one-character
 * separator, `trim`, `includes` and `toLowerCase`, plus the reverse of
 * `split` (`Array.prototype.join`) and number-to-string conversion.
 */
module Text {

  /** Number of occurrences of `d` in `s`. */
  function Count(s: string, d: char): nat
  {
    if |s| == 0 then 0 else (if s[0] == d then 1 else 0) + Count(s[1..], d)
  }

  /**
   * `s.split(d)`: the maximal pieces between separators. An empty string
   * splits to one empty piece, and empty pieces are kept.
   */
  function Split(s: string, d: char): (parts: seq<string>)
    ensures |parts| == Count(s, d) + 1
    ensures forall i :: 0 <= i < |parts| ==> d !in parts[i]
    decreases |s|
  {
    if |s| == 0 then [""]
    else
      var rest := Split(s[1..], d);
      if s[0] == d then [""] + rest
      else [[s[0]] + rest[0]] + rest[1..]
  }

  /** `parts.join(d)`. */
  function Join(parts: seq<string>, d: char): string
  {
    if |parts| == 0 then ""
    else if |parts| == 1 then parts[0]
    else parts[0] + [d] + Join(parts[1..], d)
  }

  /** Joining the pieces of a split gives the original string back. */
  lemma {:induction false} JoinSplit(s: string, d: char)
    ensures Join(Split(s, d), d) == s
    decreases |s|
  {
    if |s| == 0 {
    } else {
      var rest := Split(s[1..], d);
      JoinSplit(s[1..], d);
      if s[0] == d {
        assert Split(s, d) == [""] + rest;
        assert ([""] + rest)[1..] == rest;
        assert s == [d] + s[1..];
      } else {
        var parts := [[s[0]] + rest[0]] + rest[1..];
        assert Split(s, d) == parts;
        if |rest| == 1 {
          assert s == [s[0]] + s[1..];
        } else {
          assert parts[1..] == rest[1..];
          assert Join(rest, d) == rest[0] + [d] + Join(rest[1..], d);
          assert s == [s[0]] + s[1..];
        }
      }
    }
  }

  /** Splitting pieces joined by a separator none of them contains gives the pieces back. */
  lemma {:induction false} SplitJoin(parts: seq<string>, d: char)
    requires |parts| > 0
    requires forall i :: 0 <= i < |parts| ==> d !in parts[i]
    ensures Split(Join(parts, d), d) == parts
    decreases |parts|
  {
    if |parts| == 1 {
      SplitNoSeparator(parts[0], d);
    } else {
      SplitJoin(parts[1..], d);
      SplitAfterToken(parts[0], d, Join(parts[1..], d));
      assert [parts[0]] + parts[1..] == parts;
    }
  }

  /** A prefix free of the separator becomes the whole first piece. */
  lemma {:induction false} SplitAfterToken(a: string, d: char, b: string)
    requires d !in a
    ensures Split(a + [d] + b, d) == [a] + Split(b, d)
    decreases |a|
  {
    if |a| == 0 {
      assert a + [d] + b == [d] + b;
      assert ([d] + b)[1..] == b;
    } else {
      var s := a + [d] + b;
      assert s[1..] == a[1..] + [d] + b;
      SplitAfterToken(a[1..], d, b);
      assert [a[0]] + a[1..] == a;
    }
  }

  /** Splitting `a`, a separator, then `b` gives the pieces of `a` followed by those of `b`. */
  lemma {:induction false} SplitConcat(a: string, d: char, b: string)
    ensures Split(a + [d] + b, d) == Split(a, d) + Split(b, d)
    decreases |a|
  {
    var s := a + [d] + b;
    if |a| == 0 {
      assert s == [d] + b;
      assert s[1..] == b;
    } else {
      assert s[1..] == a[1..] + [d] + b;
      SplitConcat(a[1..], d, b);
    }
  }

  /** A string free of the separator is a single piece. */
  lemma {:induction false} SplitNoSeparator(a: string, d: char)
    requires d !in a
    ensures Split(a, d) == [a]
    decreases |a|
  {
    if |a| > 0 {
      SplitNoSeparator(a[1..], d);
      assert [a[0]] + a[1..] == a;
    }
  }

  /** The first piece of a split depends only on the text before the first separator. */
  lemma {:induction false} SplitFirstPiece(a: string, d: char, b: string)
    ensures Split(a + [d] + b, d)[0] == Split(a, d)[0]
    decreases |a|
  {
    if |a| > 0 {
      var s := a + [d] + b;
      assert s[1..] == a[1..] + [d] + b;
      if a[0] != d {
        SplitFirstPiece(a[1..], d, b);
      }
    }
  }

  /**
   * The ECMAScript WhiteSpace and LineTerminator code points, which is
   * what `trim` removes.
   */
  predicate IsWhitespace(c: char)
  {
    || c == '\t' || c == '\n' || c == '\U{000B}' || c == '\U{000C}' || c == '\r'
    || c == ' ' || c == '\U{00A0}' || c == '\U{1680}'
    || ('\U{2000}' <= c <= '\U{200A}')
    || c == '\U{2028}' || c == '\U{2029}' || c == '\U{202F}' || c == '\U{205F}'
    || c == '\U{3000}' || c == '\U{FEFF}'
  }

  /** True when `s` has no whitespace at either end. */
  predicate Trimmed(s: string)
  {
    |s| == 0 || (!IsWhitespace(s[0]) && !IsWhitespace(s[|s| - 1]))
  }

  /** Index of the first non-whitespace character of `s` at or after `i` (or `|s|`). */
  function SkipLeading(s: string, i: nat): (j: nat)
    requires i <= |s|
    ensures i <= j <= |s|
    ensures forall k :: i <= k < j ==> IsWhitespace(s[k])
    ensures j < |s| ==> !IsWhitespace(s[j])
    decreases |s| - i
  {
    if i < |s| && IsWhitespace(s[i]) then SkipLeading(s, i + 1) else i
  }

  /** End of `s[..j]` once trailing whitespace down to index `i` is dropped. */
  function SkipTrailing(s: string, i: nat, j: nat): (e: nat)
    requires i <= j <= |s|
    ensures i <= e <= j
    ensures forall k :: e <= k < j ==> IsWhitespace(s[k])
    ensures e > i ==> !IsWhitespace(s[e - 1])
    decreases j
  {
    if j > i && IsWhitespace(s[j - 1]) then SkipTrailing(s, i, j - 1) else j
  }

  /**
   * `s.trim()`: the slice of `s` between its leading and its trailing
   * whitespace; it has no whitespace at either end, and what was cut off
   * is all whitespace.
   */
  function Trim(s: string): (r: string)
    ensures Trimmed(r)
    ensures exists i, j :: TrimCut(s, i, j) && r == s[i..j]
  {
    var i := SkipLeading(s, 0);
    var j := SkipTrailing(s, i, |s|);
    assert TrimCut(s, i, j);
    s[i..j]
  }

  /** Cutting `s` to `s[i..j]` removes only whitespace. */
  predicate TrimCut(s: string, i: int, j: int)
  {
    && 0 <= i <= j <= |s|
    && (forall k :: 0 <= k < i ==> IsWhitespace(s[k]))
    && (forall k :: j <= k < |s| ==> IsWhitespace(s[k]))
  }

  /** Trimming a string with no whitespace at either end changes nothing. */
  lemma TrimTrimmed(s: string)
    requires Trimmed(s)
    ensures Trim(s) == s
  {
    assert SkipLeading(s, 0) == 0;
    assert SkipTrailing(s, 0, |s|) == |s|;
  }

  /** `needle` occurs in `hay` starting at index `i`. */
  predicate OccursAt(hay: string, needle: string, i: int)
  {
    0 <= i <= |hay| - |needle| && hay[i..i + |needle|] == needle
  }

  /** `hay.includes(needle)`. */
  function Contains(hay: string, needle: string): (r: bool)
    ensures r <==> exists i :: OccursAt(hay, needle, i)
    decreases |hay|
  {
    if |needle| > |hay| then false
    else if hay[..|needle|] == needle then
      assert OccursAt(hay, needle, 0);
      true
    else
      var r := Contains(hay[1..], needle);
      assert r ==> exists i :: OccursAt(hay, needle, i) by {
        if r {
          var i :| OccursAt(hay[1..], needle, i);
          OccursShift(hay, needle, i);
        }
      }
      assert (exists i :: OccursAt(hay, needle, i)) ==> r by {
        if exists i :: OccursAt(hay, needle, i) {
          var i :| OccursAt(hay, needle, i);
          assert i != 0;
          OccursShift(hay, needle, i - 1);
        }
      }
      r
  }

  /** An occurrence in the tail of `hay` is an occurrence in `hay` one place later. */
  lemma OccursShift(hay: string, needle: string, i: int)
    requires |hay| > 0 && 0 <= i
    ensures OccursAt(hay[1..], needle, i) <==> OccursAt(hay, needle, i + 1)
  {
    if i <= |hay| - 1 - |needle| {
      assert hay[1..][i..i + |needle|] == hay[i + 1..i + 1 + |needle|];
    }
  }

  /** Every string contains the empty string. */
  lemma ContainsEmpty(hay: string)
    ensures Contains(hay, "")
  {
    assert OccursAt(hay, "", 0);
  }

  /** Case mapping of `toLowerCase`, restricted to the ASCII letters. */
  function LowerChar(c: char): char
  {
    if 'A' <= c <= 'Z' then (c as int + 32) as char else c
  }

  /** `s.toLowerCase()`: the same length, with every letter lower-cased. */
  function ToLower(s: string): (r: string)
    ensures |r| == |s|
    ensures forall i :: 0 <= i < |s| ==> r[i] == LowerChar(s[i])
  {
    if |s| == 0 then "" else [LowerChar(s[0])] + ToLower(s[1..])
  }

  /** Lower-casing twice is the same as lower-casing once. */
  lemma ToLowerIdempotent(s: string)
    ensures ToLower(ToLower(s)) == ToLower(s)
  {
  }

  /** Every character of `s` is a decimal digit. */
  predicate IsDigits(s: string)
  {
    forall i :: 0 <= i < |s| ==> '0' <= s[i] <= '9'
  }

  /** The number a string of decimal digits denotes, most significant digit first. */
  function DigitsValue(s: string): nat
    requires IsDigits(s)
  {
    if |s| == 0 then 0 else 10 * DigitsValue(s[..|s| - 1]) + (s[|s| - 1] - '0') as nat
  }

  /**
   * Decimal digits of a natural number, as `String(n)` prints it: the
   * digits denote `n`, and only zero starts with the digit 0.
   */
  function NatToString(n: nat): (r: string)
    ensures |r| > 0 && IsDigits(r)
    ensures DigitsValue(r) == n
    ensures r[0] == '0' <==> n == 0
  {
    if n < 10 then ['0' + n as char]
    else
      var r := NatToString(n / 10) + ['0' + (n % 10) as char];
      assert r[..|r| - 1] == NatToString(n / 10);
      r
  }

  /** `String(n)` for an integer number: a minus sign exactly for a negative one, then the digits of its magnitude. */
  function IntToString(n: int): (r: string)
    ensures |r| > 0
    ensures r[0] == '-' <==> n < 0
    ensures n < 0 ==> IsDigits(r[1..]) && DigitsValue(r[1..]) == -n
    ensures n >= 0 ==> IsDigits(r) && DigitsValue(r) == n
  {
    if n < 0 then
      var r := "-" + NatToString(-n);
      assert r[1..] == NatToString(-n);
      r
    else NatToString(n)
  }
}

=== FILE: wrappers.dfy ===
/** The Option and Result datatypes used throughout the model. */
module Wrappers {

  datatype Option<+T> = None | Some(value: T)

  datatype Result<+R, +E> = Success(value: R) | Failure(error: E)
}
